=== FILE: README.md ===
# glyphana: the search and classification engine in Dafny

glyphana is a desktop glyph browser. It lists the characters of a font together with their names, and lets the user narrow the list with a search box and with character categories. This project models the engine behind that list and proves properties of it:

- **Search** (`src/search.rs`): `SearchParams::new` and `SearchEngine::search` over the cache of displayable characters (a map from character to name). The model follows the fixed order of the stages:
  - an empty query returns the whole cache;
  - then the special patterns: a single character, then the block of a single character, then a hex code (`U+XXXX`, `0xXXXX` or up to six bare hex digits), then a decimal code;
  - then the optional category filter;
  - then fuzzy word matching with edit distance at most 2;
  - then the substring ("skeleton") filter.
- **Categories** (`src/categories.rs`): the four character classifiers (a Unicode block, a union of blocks, a set of characters, a general-category property scanned over a fixed list of ranges), `Category::id`, the default classifier and the default category list. The loops that enumerate characters are methods with loop invariants, proved against specification functions.
- **Names** (`src/glyph.rs`): the per-character case-mapping expansion (`to_lowercase_string` / `to_uppercase_string`, as a method with its loop), `capitalize`, `title_case`, the hard-coded names of control and format characters, camel-case spacing of Adobe glyph names, the layered `char_name` and the filter of `available_characters`.
- **The older helpers of the application window** (`src/app.rs`), kept apart from the later versions because they behave differently:
  - the character inspectors;
  - `char_name` and the private-use `special_char_name`;
  - `capitalize` and `title_case`;
  - the lower-casing of the search text;
  - the predicate that decides which glyphs the grid shows.

Modules:

- `Unicode` (`unicode.dfy`): scalar values, `char::from_u32`, whitespace, UTF-8 length and blocks.
- `Text` (`text.dfy`): prefix and substring tests, trimming, `split_whitespace` and `join`, and per-character case maps.
- `Numeral` (`numeral.dfy`): `u32::from_str_radix` and `{:04X}`.
- `Levenshtein` (`levenshtein.dfy`): edit distance.
- `Categories`, `Search`, `Glyph` and `App`: one module per source file.

### Services of other crates

The services of other crates are parameters of the model, each with only the assumptions a lemma needs, stated as a predicate in its `requires`:

- the case maps of `char::to_lowercase`/`to_uppercase` (`char -> string`). `CaseMapOk` says an image is non-empty and keeps whitespace apart. `LowersAscii` and `UppersAscii` say the map agrees with ASCII case conversion on ASCII characters;
- the tables of `unicode_case_mapping` (`CaseTable`, with `KeepsWords` and `AsciiTables`);
- `unicode_blocks::find_unicode_block`. `BlockLookupOk` says the found block contains the character;
- `unicode_names2::name`, `glyph_names::glyph_name` and `char::is_uppercase`;
- the `finl_unicode` property tests (`PropertyMatcher`);
- egui's hash of a name (`idOf`).

### Where the code differs from what a reader might expect

The model follows the code in each of these cases:

- A one-character query whose character is displayable returns that character alone. This holds for letters too, whatever the case and category flags (`Search.SingleCharFindsItself`).
- Bare digits are read as hex before decimal: "65" finds U+0065, not U+0041 (`Search.HexBeforeDecimal`).
- The substring filter runs after the fuzzy filter. A name that matches only fuzzily is therefore dropped in the end, so a misspelt query such as "hypen" does not find HYPHEN (`Search.MisspeltQueryIsDropped`).
- There is no confusable detection anywhere: the "skeleton" search is a plain substring test.
- The multi-block table lists a "Currency" category that `create_default_categories` skips.
- A property category scans the Currency Symbols range twice, so its characters are listed twice (`Categories.PropertyCharactersRepeatCurrency`).
- `title_case` in `src/glyph.rs` lower-cases every word of at most three bytes other than "And", so "LETTER A" becomes "Letter a". The older `title_case` in `src/app.rs` capitalizes every word, and its `capitalize` leaves the rest of the word as it is.
- The grid's Adobe-name test in `src/app.rs` is `Option::contains`, that is, equality with the search text, not a substring test.

## Model

| member | source | states |
|---|---|---|
| Search.NewSearchParams | src/search.rs:15-36 | the words are exactly the whitespace-split words of the text: non-empty, whitespace-free, none exactly when the text is blank; for a case-insensitive search the lower-cased terms are those words lower-cased one by one, and there are none otherwise |
| Search.LowerTermsAreLoweredWords | src/search.rs:21-26 | lower-casing the words one by one gives the words of the lower-cased query |
| Search.Search | src/search.rs:42-67 | the result is a sub-map of the cache (same names); an empty query returns the whole cache |
| Search.SearchWithoutSpecialPattern | src/search.rs:42-67 | without a special pattern the result is the fuzzy and substring filters applied to the category-filtered cache (or the whole cache); when the query has words, every result passes the substring test |
| Search.SingleCharFindsItself | src/search.rs:81-86 | a one-character displayable query returns exactly that entry, whatever the flags and the selected category |
| Search.SingleCharFindsItsBlock | src/search.rs:88-102 | a one-character query that is not displayable returns the displayable characters of its block, all in the block, when there are any |
| Search.SingleCharPattern | src/search.rs:81-104 | a found result is a non-empty sub-map; a displayable character yields exactly its own entry |
| Search.SearchSpecialPatterns | src/search.rs:69-123 | a special result is a non-empty sub-map, with exactly one entry unless the query is a single character |
| Search.ParseHexCode | src/search.rs:125-150 | a parsed code comes only from trimmed, lower-cased text that starts with "u+" or "0x", or is all hex digits of at most six bytes; text that is blank once trimmed parses to nothing |
| Search.PrefixedHexCode | src/search.rs:125-150 | after "u+" or "0x" and an optional "+", a run of hex digits parses to its value exactly when that value is a Unicode scalar value, and to nothing otherwise (a value past `u32::MAX` included) |
| Search.UnparsablePrefixedHexCode | src/search.rs:125-150 | "u+" or "0x" followed by anything but hex digits parses to nothing |
| Search.BareHexCode | src/search.rs:125-150 | hex digits of at most six bytes without a prefix parse to their value exactly when it is a Unicode scalar value, and to nothing otherwise |
| Search.ParseCodePointLabel | src/search.rs:125-150 | the "U+XXXX" label of any character parses back to that character |
| Search.SearchByLabel | src/search.rs:106-111 | searching for a displayable character's "U+XXXX" label finds exactly that character, whatever the flags |
| Search.HexCodeFindsCharacter | src/search.rs:106-111 | a query that is a displayable hex code, and not itself a special single character, finds exactly that character |
| Search.DecimalCodeFindsCharacter | src/search.rs:113-120 | a decimal code is used only when the text is no displayable hex code, and then finds exactly its character |
| Search.HexBeforeDecimal | src/search.rs:106-120 | "65" finds U+0065 even when U+0041 is displayable too |
| Search.DecimalCode | src/search.rs:113-120 | seven digits are too long for bare hex: "0000065" finds U+0041 |
| Search.FindCategory | src/search.rs:157-158 | the index of the first category with the selected id; None when no category has it |
| Search.SelectedCategoryIsFound | src/search.rs:157-158 | when no two categories share an id, looking up a category's own id finds that category |
| Search.FilterByCategories | src/search.rs:152-170 | keeps exactly the entries the first matching category contains; the whole cache when no category matches |
| Search.ResultsWithinSelectedCategory | src/search.rs:58-66 | with a category selected and no special pattern, every result belongs to the selected category |
| Search.FuzzySearch | src/search.rs:187-229 | keeps exactly the entries each of whose terms is a substring of the name or matches one of its words (equal when either is under three bytes, else within two edits) |
| Search.FuzzyToleratesDeletion | src/search.rs:216-224 | a term that misses one letter of a word of the name still matches, when both are at least three bytes long |
| Search.SkeletonSearch | src/search.rs:231-266 | keeps exactly the entries whose character or (when names are searched) name contains the query; nothing is removed for a query without words |
| Search.ApplySearchFilters | src/search.rs:172-185 | an entry survives iff it passes the fuzzy test (when names are searched) and the substring test (when the query has words) |
| Search.FiltersWithinSkeleton | src/search.rs:172-185 | the fuzzy pass only narrows what the substring filter keeps |
| Search.BlankQueryKeepsAll | src/search.rs:235-237 | a query without words filters nothing |
| Search.LongQueryWithoutNamesFindsNothing | src/search.rs:241-265 | a case-sensitive query of two or more characters that does not search names finds nothing |
| Search.FuzzyOnlyMatchIsDropped | src/search.rs:177-184 | an entry that matches only fuzzily passes the fuzzy pass but is dropped by the substring filter |
| Search.MisspeltQueryIsDropped | src/search.rs:177-184 | "hypen" fuzzily matches the name "Hyphen" of U+2010, yet the search returns nothing |
| Levenshtein.EditDistanceDeletion | src/search.rs:222-223 | deleting one character costs at most one edit |
| Levenshtein.EditDistanceLengthGap | src/search.rs:222-223 | the distance is at least the difference of the lengths |
| Categories.SameNameSameId | src/categories.rs:23-25 | categories with equal names have equal ids |
| Unicode.BlockContains | src/categories.rs:52-55 | the block is the closed range from start to end: both ends belong to it, and a block whose end lies before its start holds nothing |
| Categories.MultiBlockContains | src/categories.rs:69-71 | a union holds a character when a member block does: an empty union holds nothing, a union of one block is that block |
| Categories.Contains | src/categories.rs:166-173 | for a block or a union of blocks, exactly the characters that `characters()` enumerates |
| Categories.BlockCharacters | src/categories.rs:39-55 | exactly the scalar values of the block, strictly ascending, so membership agrees with `contains` |
| Categories.MultiBlockCharacters | src/categories.rs:58-72 | the member blocks' characters concatenated in order; the length is the sum of the blocks' sizes; membership agrees with `contains` |
| Categories.MultiBlockKeepsDuplicates | src/categories.rs:61-67 | a character in two member blocks appears at least twice: there is no deduplication |
| Categories.CollectionCharacters | src/categories.rs:74-84 | the members of the set, each exactly once |
| Categories.PropertyCharacters | src/categories.rs:134-162 | every character of the scanned ranges that has the property, range by range; membership is the property within the ranges |
| Categories.PropertyCharactersRepeatCurrency | src/categories.rs:138-150 | every currency character with the property is listed at least twice |
| Categories.Characters | src/categories.rs:128-164 | dispatches on the variant; membership agrees with `contains`, within the scanned ranges for a property |
| Categories.CharactersAgreeWithContains | src/categories.rs:128-173 | any list `characters()` may return agrees with `contains` (within the scanned ranges for a property) |
| Categories.DefaultCategoryIsEmpty | src/categories.rs:122-126 | the default classifier contains nothing and lists nothing |
| Categories.DefaultUnicodeCategory | src/categories.rs:122-127 | the default classifier contains no character, whatever the property tests |
| Categories.DefaultCategoriesShape | src/categories.rs:177-310 | the default list has 20 categories with the listed names, in order: 8 property, 8 multi-block, 4 single-block |
| Categories.CreateDefaultCategories | src/categories.rs:177-310 | builds that list, skipping "Currency"; the names are pairwise distinct |
| Glyph.CaseExpansion | src/glyph.rs:6-25 | with no non-zero scalar code in the table entry the character stays itself; otherwise the expansion is the entry's mapped characters, which are exactly its non-zero scalar codes |
| Glyph.MappedCharsAppend | src/glyph.rs:10-21 | the mapped characters of two runs of codes are those of each run in turn, so every code is kept or dropped in place, in order and with repeats |
| Glyph.SharpSExpansion | src/glyph.rs:31-42 | upper-casing ß through the entry [0x53, 0x53, 0] gives "SS" |
| Glyph.ExpandCase | src/glyph.rs:10-21 | the loop builds exactly that expansion |
| Glyph.CaseString | src/glyph.rs:6-46 | never shorter than the input, and empty exactly when the input is |
| Glyph.CaseStringAppend | src/glyph.rs:6-46 | case mapping distributes over concatenation |
| Glyph.Capitalize | src/glyph.rs:184-195 | empty exactly for the empty string; never shorter; the first character's upper-case expansion followed by the rest of the string lower-cased |
| Glyph.CapitalizeAscii | src/glyph.rs:184-195 | on ASCII text: the first character upper-cased, the rest lower-cased |
| Glyph.CapitalizeExample | src/glyph.rs:184-195 | "LETTER" becomes "Letter" |
| Glyph.TitleWord | src/glyph.rs:199-205 | a word stays non-empty under `title_case`'s per-word rule |
| Glyph.TitleCase | src/glyph.rs:197-208 | a blank string has an empty title case |
| Glyph.TitleCaseWords | src/glyph.rs:197-208 | the words of the result are the input's words, each lower-cased (three bytes or less, not "And") or capitalized, in order; the word count is preserved |
| Glyph.TitleCaseNonEmpty | src/glyph.rs:197-208 | a string with a word has a non-empty title case |
| Glyph.TitleCaseExample | src/glyph.rs:197-208 | "LETTER A" becomes "Letter a" |
| Glyph.CamelSpaced | src/glyph.rs:62-72 | empty exactly for the empty name; the first character stays in front; never shorter |
| Glyph.CamelSpacedFacts | src/glyph.rs:62-72 | spacing keeps every character in order and inserts one space per upper-case character after the first position; every character past the first keeps its order, with a space right before it when it is upper case |
| Glyph.CamelSpacedSpaces | src/glyph.rs:62-72 | for a name without spaces, every space of the result is followed by an upper-case character of the name |
| Glyph.CamelSpacedRoundTrip | src/glyph.rs:62-72 | deleting the spaces gives back an Adobe name that had none |
| Glyph.SpecialCharName | src/glyph.rs:80-166 | a name exactly for the C0 controls, space, delete and the listed space and format characters; never an empty name |
| Glyph.CharName | src/glyph.rs:48-78 | the layers in strict priority: hard-coded name, title-cased Unicode name, spaced and title-cased Adobe name, "U+XXXX" |
| Glyph.CharNameNonEmpty | src/glyph.rs:48-78 | a name is never empty when the name services never return a blank name |
| Glyph.PlaceholderCode | src/glyph.rs:77 | the placeholder is "U+" followed by hex digits worth the character's code |
| Glyph.AvailableCharacters | src/glyph.rs:168-182 | exactly the font's characters that are neither whitespace nor ASCII controls, each with its name |
| App.Contains | src/app.rs:54-88 | for a block or a union of blocks, exactly the characters that `characters` enumerates |
| App.Characters | src/app.rs:46-89 | block values in order, blocks concatenated in order, or the collection's keys each once; in every case exactly the characters `contains` accepts |
| App.AppSpecialCharName | src/app.rs:634-770 | a name exactly for the listed private-use characters of the bundled fonts; never an empty name |
| App.AppSpecialNameExamples | src/app.rs:634-770 | U+F8FF is "os-apple", U+FE4E5 is "flag japan", U+F001 is "fi", 'A' has no special name |
| App.AppCharName | src/app.rs:627-632 | the special name, else the lower-cased Unicode name, else "unknown" |
| App.AppCharNameNonEmpty | src/app.rs:627-632 | the name is never empty when a Unicode name is never empty |
| App.AppCharNameLowered | src/app.rs:627-632 | an ASCII Unicode name comes out without upper-case letters |
| App.AppCapitalize | src/app.rs:795-801 | the first character's upper-case image followed by the rest of the string unchanged |
| App.AppCapitalizeExample | src/app.rs:795-801 | "hELLO" becomes "HELLO": the rest is not lower-cased |
| App.AppTitleCase | src/app.rs:804-816 | the empty string gives the empty string |
| App.AppTitleCaseWords | src/app.rs:804-816 | the words of the result are the input's words lower-cased and then capitalized, in order; the word count is preserved |
| App.AppTitleCaseBlank | src/app.rs:804-816 | a blank string has an empty title case |
| App.AppTitleCaseExample | src/app.rs:804-816 | "a B" becomes "A B": short words are capitalized too |
| App.NormalizeSearchText | src/app.rs:321-323 | a case-sensitive search leaves the text unchanged; otherwise ASCII text comes out lower-cased; the empty text stays empty |
| App.NormalizeLength | src/app.rs:321-323 | lower-casing never shortens the text |
| App.NormalizeIdempotent | src/app.rs:321-323 | repeating the lower-casing on the next frame changes nothing |
| App.AnySelectedContains | src/app.rs:385-389 | true exactly when a toggled category contains the character |
| App.NoneSelected | src/app.rs:391-394 | true exactly when no category is toggled |
| App.TextShows | src/app.rs:381-384 | an empty search shows every glyph; a name search for the whole name, or a character search for the character itself, shows it |
| App.GridVisible | src/app.rs:381-394 | shown exactly when the glyph passes the text test and either some toggled category contains it or no category is toggled |
| App.SelectingMoreShowsMore | src/app.rs:381-394 | toggling one more category on, while another is on, hides nothing |
| App.FirstSelectionNarrows | src/app.rs:381-394 | toggling the first category on shows exactly the glyphs that pass the text test and lie in it |
| App.TypedNameIsFound | src/app.rs:321-394 | a name typed in any ASCII case is found by a case-insensitive name search |

## Left out

- The window, panels, menus, fonts, painting, persistence and the rest of `GlyphanaApp::update`: GUI code with no logic of its own here. This includes the mutation of the search text and the selected character in `update`; only the lower-casing it performs is modelled.
- `GlyphScale` and UI scaling: floating point.
- The tables of other crates (`unicode_names2`, `glyph_names`, `unicode_case_mapping`, `finl_unicode`, `unicode_blocks`) and egui's hashing are parameters, not data. The block constants are written out only for the blocks the default categories use.
- `to_lowercase`'s context rule for a final sigma: the model maps character by character.
- `sz_edit_distance` works on bytes and `EditDistance` on characters. They agree on ASCII text; multi-byte characters are not modelled at the byte level.
- Iteration orders of `HashMap`/`HashSet`: a collection's characters are in an unspecified order, and the model fixes none.
- The `BTreeMap` cache is a `map`; its ascending key order is not modelled.
- `available_characters`: the query of egui's font atlas is a parameter, the font's character set.
- `other_char_name` in `src/app.rs`: nothing calls it.
- `Hash for Category` is not modelled as a hasher; `Categories.SameNameSameId` states the fact it guarantees for ids.
- `src/main.rs`, `src/ui.rs`, `src/lib.rs` and `src/character_sets.rs` are not part of this model: bootstrapping, constants and unused demo code.
- App.AppTitleCase: its own contract states only the empty case; what happens to each word is stated by `App.AppTitleCaseWords`.
- App.AppCapitalize: does not state the converse of its empty case (an empty result only for the empty string). The `upper` parameter may map a character to an empty string, while `char::to_uppercase` never does.
- Categories.Characters: for a property category, membership agrees with `contains` only within the scanned ranges, as the code does.
- Search.Search: its own contract states only the sub-map and empty-query facts. `Search.SearchWithoutSpecialPattern` states how the stages compose, and the lemmas listed above for the stages state what each returns.

=== FILE: app.dfy ===
/** The older helpers of the application window: its character inspectors,
    its naming functions, its text helpers and the predicate that decides
    which glyphs the grid shows. They differ from the later versions in
    small ways (names are lower-cased, `capitalize` leaves the rest of the
    string alone, title-casing capitalizes every word). */
module App {
  import opened Unicode
  import opened Text
  import C = Categories

  // ---------------------------------------------------------------------
  // Character inspectors

  /** The application's `UnicodeCategory`: a block, a union of blocks, or a
      collection of named characters. */
  datatype AppCategory =
    | Block(block: UnicodeBlock)
    | MultiBlock(blocks: seq<UnicodeBlock>)
    | Collection(entries: map<char, string>)

  /** `CharacterInspector::contains`. For blocks and unions of blocks it
      accepts exactly the characters `characters` lists. */
  predicate Contains(category: AppCategory, c: char): (r: bool)
    ensures category.Block? ==> (r <==> c in C.ScalarsIn(category.block.start, category.block.end))
    ensures category.MultiBlock? ==> (r <==> c in C.MultiBlockScalars(category.blocks))
  {
    match category
    case Block(b) => C.ScalarsInMembership(b.start, b.end, c); BlockContains(b, c)
    case MultiBlock(blocks) => C.MultiBlockScalarsMembership(blocks, c); C.MultiBlockContains(blocks, c)
    case Collection(entries) => c in entries
  }

  /** `CharacterInspector::characters`: a block's scalar values in order,
      the blocks' values concatenated in order, or the collection's keys in
      the map's (unspecified) iteration order; in every case exactly the
      characters `contains` accepts. */
  method Characters(category: AppCategory) returns (chars: seq<char>)
    ensures category.Block? ==> chars == C.ScalarsIn(category.block.start, category.block.end)
    ensures category.MultiBlock? ==> chars == C.MultiBlockScalars(category.blocks)
    ensures category.Collection? ==>
      |chars| == |category.entries| &&
      forall i, j :: 0 <= i < j < |chars| ==> chars[i] != chars[j]
    ensures forall c :: c in chars <==> Contains(category, c)
  {
    match category {
      case Block(b) => chars := C.BlockCharacters(b);
      case MultiBlock(blocks) => chars := C.MultiBlockCharacters(blocks);
      case Collection(entries) => chars := C.CollectionCharacters(entries.Keys);
    }
  }

  // ---------------------------------------------------------------------
  // special_char_name

  /** The characters of `emoji-icon-font.ttf` named as flags and squared
      digits. */
  predicate IsEmojiFlag(c: char) {
    ('\U{FE4E5}' <= c <= '\U{FE4EE}') || c == '\U{FE82C}' || ('\U{FE82E}' <= c <= '\U{FE837}')
  }

  /** The characters of `emoji-icon-font.ttf` named after web services,
      operating systems and browsers. */
  predicate IsEmojiWeb(c: char) {
    ('\U{E600}' <= c <= '\U{E608}') || ('\U{E60A}' <= c <= '\U{E636}') ||
    c == '\U{F189}' || c == '\U{F1A6}' || c == '\U{F1CA}' || c == '\U{F8FF}'
  }

  /** The private-use characters of `Ubuntu-Light.ttf`: ligatures,
      fractions and alternate, superior and inferior digits. */
  predicate IsUbuntuExtra(c: char) {
    ('\U{F000}' <= c <= '\U{F002}') || ('\U{F506}' <= c <= '\U{F511}') || ('\U{F800}' <= c <= '\U{F81D}')
  }

  /** The characters the application's `special_char_name` names. */
  predicate HasAppSpecialName(c: char) {
    IsEmojiFlag(c) || IsEmojiWeb(c) || IsUbuntuExtra(c)
  }

  function EmojiFlagName(c: char): (r: Option<string>)
    ensures r.Some? <==> IsEmojiFlag(c)
    ensures r.Some? ==> r.value != []
  {
    match c
    case '\U{FE4E5}' => Some("flag japan")
    case '\U{FE4E6}' => Some("flag usa")
    case '\U{FE4E7}' => Some("flag")
    case '\U{FE4E8}' => Some("flag")
    case '\U{FE4E9}' => Some("flag")
    case '\U{FE4EA}' => Some("flag great britain")
    case '\U{FE4EB}' => Some("flag")
    case '\U{FE4EC}' => Some("flag")
    case '\U{FE4ED}' => Some("flag")
    case '\U{FE4EE}' => Some("flag south korea")
    case '\U{FE82C}' => Some("number sign in square")
    case '\U{FE82E}' => Some("digit one in square")
    case '\U{FE82F}' => Some("digit two in square")
    case '\U{FE830}' => Some("digit three in square")
    case '\U{FE831}' => Some("digit four in square")
    case '\U{FE832}' => Some("digit five in square")
    case '\U{FE833}' => Some("digit six in square")
    case '\U{FE834}' => Some("digit seven in square")
    case '\U{FE835}' => Some("digit eight in square")
    case '\U{FE836}' => Some("digit nine in square")
    case '\U{FE837}' => Some("digit zero in square")
    case _ => None
  }

  function EmojiWebName(c: char): (r: Option<string>)
    ensures r.Some? <==> IsEmojiWeb(c)
    ensures r.Some? ==> r.value != []
  {
    match c
    case '\U{E600}' => Some("web-dribbble")
    case '\U{E601}' => Some("web-stackoverflow")
    case '\U{E602}' => Some("web-vimeo")
    case '\U{E603}' => Some("web-twitter")
    case '\U{E604}' => Some("web-facebook")
    case '\U{E605}' => Some("web-googleplus")
    case '\U{E606}' => Some("web-pinterest")
    case '\U{E607}' => Some("web-tumblr")
    case '\U{E608}' => Some("web-linkedin")
    case '\U{E60A}' => Some("web-stumbleupon")
    case '\U{E60B}' => Some("web-lastfm")
    case '\U{E60C}' => Some("web-rdio")
    case '\U{E60D}' => Some("web-spotify")
    case '\U{E60E}' => Some("web-qq")
    case '\U{E60F}' => Some("web-instagram")
    case '\U{E610}' => Some("web-dropbox")
    case '\U{E611}' => Some("web-evernote")
    case '\U{E612}' => Some("web-flattr")
    case '\U{E613}' => Some("web-skype")
    case '\U{E614}' => Some("web-renren")
    case '\U{E615}' => Some("web-sina-weibo")
    case '\U{E616}' => Some("web-paypal")
    case '\U{E617}' => Some("web-picasa")
    case '\U{E618}' => Some("os-android")
    case '\U{E619}' => Some("web-mixi")
    case '\U{E61A}' => Some("web-behance")
    case '\U{E61B}' => Some("web-circles")
    case '\U{E61C}' => Some("web-vk")
    case '\U{E61D}' => Some("web-smashing")
    case '\U{E61E}' => Some("web-forrst")
    case '\U{E61F}' => Some("os-windows")
    case '\U{E620}' => Some("web-flickr")
    case '\U{E621}' => Some("web-picassa")
    case '\U{E622}' => Some("web-deviantart")
    case '\U{E623}' => Some("web-steam")
    case '\U{E624}' => Some("web-github")
    case '\U{E625}' => Some("web-git")
    case '\U{E626}' => Some("web-blogger")
    case '\U{E627}' => Some("web-soundcloud")
    case '\U{E628}' => Some("web-reddit")
    case '\U{E629}' => Some("web-delicious")
    case '\U{E62A}' => Some("browser-chrome")
    case '\U{E62B}' => Some("browser-firefox")
    case '\U{E62C}' => Some("browser-ie")
    case '\U{E62D}' => Some("browser-opera")
    case '\U{E62E}' => Some("browser-safari")
    case '\U{E62F}' => Some("web-google-drive")
    case '\U{E630}' => Some("web-wordpress")
    case '\U{E631}' => Some("web-joomla")
    case '\U{E632}' => Some("lastfm")
    case '\U{E633}' => Some("web-foursquare")
    case '\U{E634}' => Some("web-yelp")
    case '\U{E635}' => Some("web-drupal")
    case '\U{E636}' => Some("youtube")
    case '\U{F189}' => Some("vk")
    case '\U{F1A6}' => Some("digg")
    case '\U{F1CA}' => Some("web-vine")
    case '\U{F8FF}' => Some("os-apple")
    case _ => None
  }

  function UbuntuExtraName(c: char): (r: Option<string>)
    ensures r.Some? <==> IsUbuntuExtra(c)
    ensures r.Some? ==> r.value != []
  {
    match c
    case '\U{F000}' => Some("uniF000")
    case '\U{F001}' => Some("fi")
    case '\U{F002}' => Some("fl")
    case '\U{F506}' => Some("one seventh")
    case '\U{F507}' => Some("two sevenths")
    case '\U{F508}' => Some("three sevenths")
    case '\U{F509}' => Some("four sevenths")
    case '\U{F50A}' => Some("five sevenths")
    case '\U{F50B}' => Some("six sevenths")
    case '\U{F50C}' => Some("one ninth")
    case '\U{F50D}' => Some("two ninths")
    case '\U{F50E}' => Some("four ninths")
    case '\U{F50F}' => Some("five ninths")
    case '\U{F510}' => Some("seven ninths")
    case '\U{F511}' => Some("eight ninths")
    case '\U{F800}' => Some("zero.alt")
    case '\U{F801}' => Some("one.alt")
    case '\U{F802}' => Some("two.alt")
    case '\U{F803}' => Some("three.alt")
    case '\U{F804}' => Some("four.alt")
    case '\U{F805}' => Some("five.alt")
    case '\U{F806}' => Some("six.alt")
    case '\U{F807}' => Some("seven.alt")
    case '\U{F808}' => Some("eight.alt")
    case '\U{F809}' => Some("nine.alt")
    case '\U{F80A}' => Some("zero.sups")
    case '\U{F80B}' => Some("one.sups")
    case '\U{F80C}' => Some("two.sups")
    case '\U{F80D}' => Some("three.sups")
    case '\U{F80E}' => Some("four.sups")
    case '\U{F80F}' => Some("five.sups")
    case '\U{F810}' => Some("six.sups")
    case '\U{F811}' => Some("seven.sups")
    case '\U{F812}' => Some("eight.sups")
    case '\U{F813}' => Some("nine.sups")
    case '\U{F814}' => Some("zero.sinf")
    case '\U{F815}' => Some("one.sinf")
    case '\U{F816}' => Some("two.sinf")
    case '\U{F817}' => Some("three.sinf")
    case '\U{F818}' => Some("four.sinf")
    case '\U{F819}' => Some("five.sinf")
    case '\U{F81A}' => Some("six.sinf")
    case '\U{F81B}' => Some("seven.sinf")
    case '\U{F81C}' => Some("eight.sinf")
    case '\U{F81D}' => Some("nine.sinf")
    case _ => None
  }

  /** `special_char_name`: the hard-coded names of private-use characters
      found in the bundled fonts. The three groups cover disjoint ranges, so
      trying them in turn is the single match of the source. */
  function AppSpecialCharName(c: char): (r: Option<string>)
    ensures r.Some? <==> HasAppSpecialName(c)
    ensures r.Some? ==> r.value != []
  {
    if IsEmojiFlag(c) then EmojiFlagName(c)
    else if IsEmojiWeb(c) then EmojiWebName(c)
    else UbuntuExtraName(c)
  }

  lemma AppSpecialNameExamples()
    ensures AppSpecialCharName('\U{F8FF}') == Some("os-apple")
    ensures AppSpecialCharName('\U{FE4E5}') == Some("flag japan")
    ensures AppSpecialCharName('\U{F001}') == Some("fi")
    ensures AppSpecialCharName('A') == None
  {
  }

  // ---------------------------------------------------------------------
  // char_name

  /** `char_name`: the hard-coded name, else the lower-cased Unicode name,
      else "unknown". `unicodeName` stands for `unicode_names2::name` and
      `lower` for `char::to_lowercase`. */
  function AppCharName(c: char, unicodeName: char -> Option<string>, lower: char -> string): (r: string)
    ensures AppSpecialCharName(c).Some? ==> r == AppSpecialCharName(c).value
    ensures AppSpecialCharName(c).None? && unicodeName(c).Some? ==> r == FlatMap(lower, unicodeName(c).value)
    ensures AppSpecialCharName(c).None? && unicodeName(c).None? ==> r == "unknown"
  {
    match AppSpecialCharName(c)
    case Some(name) => name
    case None =>
      match unicodeName(c)
      case Some(name) => FlatMap(lower, name)
      case None => "unknown"
  }

  /** A name is never empty, provided a Unicode name is never empty. */
  lemma AppCharNameNonEmpty(c: char, unicodeName: char -> Option<string>, lower: char -> string)
    requires CaseMapOk(lower)
    requires unicodeName(c).Some? ==> unicodeName(c).value != []
    ensures AppCharName(c, unicodeName, lower) != []
  {
    if AppSpecialCharName(c).None? && unicodeName(c).Some? {
      FlatMapLength(lower, unicodeName(c).value);
    }
  }

  /** A Unicode name in ASCII comes out without upper-case ASCII letters,
      however it was written. */
  lemma AppCharNameLowered(c: char, unicodeName: char -> Option<string>, lower: char -> string)
    requires LowersAscii(lower)
    requires AppSpecialCharName(c).None? && unicodeName(c).Some?
    requires forall i :: 0 <= i < |unicodeName(c).value| ==> unicodeName(c).value[i] as int < 0x80
    ensures forall i :: 0 <= i < |AppCharName(c, unicodeName, lower)| ==> !('A' <= AppCharName(c, unicodeName, lower)[i] <= 'Z')
  {
    FlatMapAscii(lower, unicodeName(c).value);
  }

  // ---------------------------------------------------------------------
  // capitalize / title_case

  /** `capitalize`: the first character upper-cased (`upper` stands for
      `char::to_uppercase`), the rest of the string unchanged. */
  function AppCapitalize(upper: char -> string, s: string): (r: string)
    ensures s == [] ==> r == []
    ensures s != [] ==> HasPrefix(r, upper(s[0])) && |r| == |upper(s[0])| + |s| - 1
    ensures s != [] ==> r[|upper(s[0])|..] == s[1..]
  {
    if s == [] then [] else upper(s[0]) + s[1..]
  }

  /** Capitalizing a word gives a word. */
  lemma AppCapitalizeWord(upper: char -> string, w: string)
    requires CaseMapOk(upper) && IsWord(w)
    ensures IsWord(AppCapitalize(upper, w))
  {
    assert CaseImageOk(w[0], upper(w[0]));
    assert NoWhitespace(w[1..]) by {
      forall i | 0 <= i < |w[1..]| ensures !IsWhitespace(w[1..][i]) {
        assert w[1..][i] == w[i + 1];
      }
    }
    NoWhitespaceConcat(upper(w[0]), w[1..]);
  }

  /** Each word capitalized. */
  function CapitalizeWords(upper: char -> string, words: seq<string>): (r: seq<string>)
    ensures |r| == |words|
    ensures forall i :: 0 <= i < |words| ==> r[i] == AppCapitalize(upper, words[i])
  {
    if words == [] then [] else [AppCapitalize(upper, words[0])] + CapitalizeWords(upper, words[1..])
  }

  /** `title_case`: the string lower-cased, split into words, each word
      capitalized, joined by single spaces. */
  function AppTitleCase(upper: char -> string, lower: char -> string, s: string): (r: string)
    ensures s == [] ==> r == []
  {
    Join(CapitalizeWords(upper, SplitWhitespace(FlatMap(lower, s))), " ")
  }

  /** A blank string has no words, so its title case is empty. */
  lemma AppTitleCaseBlank(upper: char -> string, lower: char -> string, s: string)
    requires CaseMapOk(lower) && AllWhitespace(s)
    ensures AppTitleCase(upper, lower, s) == []
  {
    SplitFlatMap(lower, s);
    SplitBlank(s);
  }

  /** The words of the result are the input's words, lower-cased and then
      capitalized, in order; so the word count is preserved. */
  lemma AppTitleCaseWords(upper: char -> string, lower: char -> string, s: string)
    requires CaseMapOk(upper) && CaseMapOk(lower)
    ensures SplitWhitespace(AppTitleCase(upper, lower, s)) == CapitalizeWords(upper, MapWords(lower, SplitWhitespace(s)))
    ensures |SplitWhitespace(AppTitleCase(upper, lower, s))| == |SplitWhitespace(s)|
  {
    var words := SplitWhitespace(FlatMap(lower, s));
    SplitFlatMap(lower, s);
    var capitalized := CapitalizeWords(upper, words);
    forall i | 0 <= i < |capitalized| ensures IsWord(capitalized[i]) {
      AppCapitalizeWord(upper, words[i]);
    }
    SplitJoin(capitalized);
  }

  // ---------------------------------------------------------------------
  // The search text

  /** The search text after the edit field's update: lower-cased (by
      `str::to_lowercase`, whose per-character map is `lower`) unless the
      search is case-sensitive. */
  function NormalizeSearchText(text: string, caseSensitive: bool, lower: char -> string): (r: string)
    ensures caseSensitive ==> r == text
    ensures text == [] ==> r == []
    ensures !caseSensitive && LowersAscii(lower) && IsAsciiString(text) ==> r == AsciiLowerString(text)
  {
    if caseSensitive then text else LowersAsciiText(lower, text); FlatMap(lower, text)
  }

  /** Lower-casing never shortens the text, and never empties a non-empty
      one. */
  lemma NormalizeLength(text: string, caseSensitive: bool, lower: char -> string)
    requires CaseMapOk(lower)
    ensures |NormalizeSearchText(text, caseSensitive, lower)| >= |text|
  {
    FlatMapLength(lower, text);
  }

  /** A case map whose images are already mapped to themselves, as the
      lower-case images of `char::to_lowercase` are. */
  ghost predicate Idempotent(lower: char -> string) {
    forall c :: FlatMap(lower, lower(c)) == lower(c)
  }

  /** The text is normalized again on every frame; once lower-cased it stays
      as it is. */
  lemma {:induction false} NormalizeIdempotent(text: string, caseSensitive: bool, lower: char -> string)
    requires Idempotent(lower)
    ensures NormalizeSearchText(NormalizeSearchText(text, caseSensitive, lower), caseSensitive, lower)
         == NormalizeSearchText(text, caseSensitive, lower)
  {
    if !caseSensitive && text != [] {
      NormalizeIdempotent(text[1..], caseSensitive, lower);
      FlatMapAppend(lower, lower(text[0]), FlatMap(lower, text[1..]));
    }
  }

  /** A case map that agrees with ASCII upper-casing on ASCII characters, as
      `char::to_uppercase` does. */
  ghost predicate UppersAscii(f: char -> string) {
    forall c :: c as int < 0x80 ==> f(c) == [AsciiUpper(c)]
  }

  /** Unlike the later `capitalize`, the rest of the string is kept as it
      is: "hELLO" becomes "HELLO". */
  lemma AppCapitalizeExample(upper: char -> string)
    requires UppersAscii(upper)
    ensures AppCapitalize(upper, "hELLO") == "HELLO"
  {
    assert upper('h') == "H";
    assert "hELLO"[1..] == "ELLO";
  }

  lemma LowerExample(lower: char -> string)
    requires LowersAscii(lower)
    ensures FlatMap(lower, "a B") == "a b"
  {
    var s := "a B";
    assert lower('a') == "a" && lower(' ') == " " && lower('B') == "b";
    assert FlatMap(lower, s[2..]) == "b";
    assert FlatMap(lower, s[1..]) == " b";
  }

  lemma CapitalizeExampleWords(upper: char -> string)
    requires UppersAscii(upper)
    ensures CapitalizeWords(upper, ["a", "b"]) == ["A", "B"]
  {
    assert upper('a') == "A" && upper('b') == "B";
    assert AppCapitalize(upper, "a") == "A" by { assert "a"[1..] == []; }
    assert AppCapitalize(upper, "b") == "B" by { assert "b"[1..] == []; }
  }

  /** Unlike the later `title_case`, short words are capitalized too:
      "a B" becomes "A B". */
  lemma AppTitleCaseExample(upper: char -> string, lower: char -> string)
    requires UppersAscii(upper) && LowersAscii(lower)
    ensures AppTitleCase(upper, lower, "a B") == "A B"
  {
    LowerExample(lower);
    SplitTwoWords("a", "b");
    assert "a" + " " + "b" == "a b";
    CapitalizeExampleWords(upper);
    assert Join(["A", "B"], " ") == "A B";
  }

  // ---------------------------------------------------------------------
  // The glyph grid

  /** An entry of the window's category list: a name, the inspector, and
      whether its toggle is on. */
  datatype CategoryToggle = CategoryToggle(name: string, category: AppCategory, selected: bool)

  /** The toggled categories folded with `||`: does one of them contain `c`? */
  function AnySelectedContains(toggles: seq<CategoryToggle>, c: char): (r: bool)
    ensures r <==> exists i :: 0 <= i < |toggles| && toggles[i].selected && Contains(toggles[i].category, c)
  {
    if toggles == [] then false
    else
      var init := toggles[..|toggles| - 1];
      assert forall i :: 0 <= i < |init| ==> init[i] == toggles[i];
      AnySelectedContains(init, c) ||
      (toggles[|toggles| - 1].selected && Contains(toggles[|toggles| - 1].category, c))
  }

  /** All categories folded with `&& !selected`: is no toggle on? */
  function NoneSelected(toggles: seq<CategoryToggle>): (r: bool)
    ensures r <==> forall i :: 0 <= i < |toggles| ==> !toggles[i].selected
  {
    if toggles == [] then true
    else
      var init := toggles[..|toggles| - 1];
      assert forall i :: 0 <= i < |init| ==> init[i] == toggles[i];
      NoneSelected(init) && !toggles[|toggles| - 1].selected
  }

  /** The text half of the grid test: an empty search, the name containing
      the text (name search), the text containing the character (character
      search), or the Adobe glyph name (`glyphName` stands for
      `glyph_names::glyph_name`) equal to the text, as `Option::contains`
      compares. */
  predicate TextShows(c: char, name: string, text: string, searchName: bool, glyphName: nat -> Option<string>): (r: bool)
    ensures text == [] ==> r
    ensures searchName && text == name ==> r
    ensures !searchName && text == [c] ==> r
  {
    ContainsSelf(name);
    text == [] ||
    (searchName && Text.Contains(name, text)) ||
    (!searchName && c in text) ||
    glyphName(c as nat) == Some(text)
  }

  /** Whether the grid shows character `c` with name `name`: it passes the
      text test, and some toggled category contains it or no category is
      toggled. */
  function GridVisible(c: char, name: string, text: string, searchName: bool,
                       glyphName: nat -> Option<string>, toggles: seq<CategoryToggle>): (shown: bool)
    ensures shown <==>
      (TextShows(c, name, text, searchName, glyphName) &&
       ((exists i :: 0 <= i < |toggles| && toggles[i].selected && Contains(toggles[i].category, c)) ||
        (forall i :: 0 <= i < |toggles| ==> !toggles[i].selected)))
  {
    TextShows(c, name, text, searchName, glyphName) &&
    (AnySelectedContains(toggles, c) || NoneSelected(toggles))
  }

  /** With no search text and no toggle on, the grid shows every character. */
  lemma GridShowsAllUnfiltered(c: char, name: string, searchName: bool,
                               glyphName: nat -> Option<string>, toggles: seq<CategoryToggle>)
    requires forall i :: 0 <= i < |toggles| ==> !toggles[i].selected
    ensures GridVisible(c, name, [], searchName, glyphName, toggles)
  {
  }

  /** Turning on one more toggle, while another is already on, hides
      nothing. */
  lemma SelectingMoreShowsMore(c: char, name: string, text: string, searchName: bool,
                               glyphName: nat -> Option<string>, toggles: seq<CategoryToggle>, k: nat)
    requires k < |toggles| && !NoneSelected(toggles)
    requires GridVisible(c, name, text, searchName, glyphName, toggles)
    ensures GridVisible(c, name, text, searchName, glyphName, toggles[k := toggles[k].(selected := true)])
  {
    var more := toggles[k := toggles[k].(selected := true)];
    var i :| 0 <= i < |toggles| && toggles[i].selected && Contains(toggles[i].category, c);
    assert more[i].selected && Contains(more[i].category, c);
  }

  /** Turning on the first toggle narrows the grid to that category. */
  lemma FirstSelectionNarrows(c: char, name: string, text: string, searchName: bool,
                              glyphName: nat -> Option<string>, toggles: seq<CategoryToggle>, k: nat)
    requires k < |toggles| && NoneSelected(toggles)
    ensures GridVisible(c, name, text, searchName, glyphName, toggles[k := toggles[k].(selected := true)])
        <==> TextShows(c, name, text, searchName, glyphName) && Contains(toggles[k].category, c)
  {
    var more := toggles[k := toggles[k].(selected := true)];
    assert more[k].selected;
    if AnySelectedContains(more, c) {
      var i :| 0 <= i < |more| && more[i].selected && Contains(more[i].category, c);
      assert i == k;
    }
  }

  /** Typing a name in any ASCII case finds it in a case-insensitive name
      search, when the name is the lower-cased form of the typed text: the
      text is lower-cased before the grid compares. */
  lemma TypedNameIsFound(c: char, name: string, typed: string, lower: char -> string,
                         glyphName: nat -> Option<string>, toggles: seq<CategoryToggle>)
    requires LowersAscii(lower) && NoneSelected(toggles)
    requires |typed| == |name|
    requires forall i :: 0 <= i < |typed| ==> typed[i] as int < 0x80 && AsciiLower(typed[i]) == name[i]
    ensures GridVisible(c, name, NormalizeSearchText(typed, false, lower), true, glyphName, toggles)
  {
    FlatMapAscii(lower, typed);
    assert NormalizeSearchText(typed, false, lower) == name;
    ContainsSelf(name);
  }
}

=== FILE: categories.dfy ===
/** Character classifiers (`CharacterInspector` and its implementations),
    named categories, and the default category list. */
module Categories {
  import opened Unicode

  // The blocks of the `unicode_blocks` crate that the default categories use.
  const BasicLatin := UnicodeBlock(0x0000, 0x007F)
  const Latin1Supplement := UnicodeBlock(0x0080, 0x00FF)
  const LatinExtendedA := UnicodeBlock(0x0100, 0x017F)
  const LatinExtendedB := UnicodeBlock(0x0180, 0x024F)
  const GreekAndCoptic := UnicodeBlock(0x0370, 0x03FF)
  const Cyrillic := UnicodeBlock(0x0400, 0x04FF)
  const Hebrew := UnicodeBlock(0x0590, 0x05FF)
  const Arabic := UnicodeBlock(0x0600, 0x06FF)
  const CurrencySymbols := UnicodeBlock(0x20A0, 0x20CF)
  const Arrows := UnicodeBlock(0x2190, 0x21FF)
  const MathematicalOperators := UnicodeBlock(0x2200, 0x22FF)
  const MiscellaneousTechnical := UnicodeBlock(0x2300, 0x23FF)
  const ControlPictures := UnicodeBlock(0x2400, 0x243F)
  const OpticalCharacterRecognition := UnicodeBlock(0x2440, 0x245F)
  const BoxDrawing := UnicodeBlock(0x2500, 0x257F)
  const BlockElements := UnicodeBlock(0x2580, 0x259F)
  const GeometricShapes := UnicodeBlock(0x25A0, 0x25FF)
  const MiscellaneousSymbols := UnicodeBlock(0x2600, 0x26FF)
  const MiscellaneousMathematicalSymbolsA := UnicodeBlock(0x27C0, 0x27EF)
  const SupplementalArrowsA := UnicodeBlock(0x27F0, 0x27FF)
  const SupplementalArrowsB := UnicodeBlock(0x2900, 0x297F)
  const MiscellaneousMathematicalSymbolsB := UnicodeBlock(0x2980, 0x29FF)
  const SupplementalMathematicalOperators := UnicodeBlock(0x2A00, 0x2AFF)
  const MiscellaneousSymbolsAndArrows := UnicodeBlock(0x2B00, 0x2BFF)
  const ByzantineMusicalSymbols := UnicodeBlock(0x1D000, 0x1D0FF)
  const MusicalSymbols := UnicodeBlock(0x1D100, 0x1D1FF)
  const AncientGreekMusicalNotation := UnicodeBlock(0x1D200, 0x1D24F)
  const MathematicalAlphanumericSymbols := UnicodeBlock(0x1D400, 0x1D7FF)
  const MiscellaneousSymbolsAndPictographs := UnicodeBlock(0x1F300, 0x1F5FF)
  const Emoticons := UnicodeBlock(0x1F600, 0x1F64F)
  const TransportAndMapSymbols := UnicodeBlock(0x1F680, 0x1F6FF)
  const SupplementalArrowsC := UnicodeBlock(0x1F800, 0x1F8FF)
  const SupplementalSymbolsAndPictographs := UnicodeBlock(0x1F900, 0x1F9FF)

  /** The general-category tests of `finl_unicode` a property category uses. */
  datatype PropertyType =
    | UppercaseLetters | LowercaseLetters | MathSymbols | CurrencySymbolsProperty
    | Punctuation | DecimalNumbers | AllLetters | AllNumbers | AllSymbols

  /** `PropertyType::matches`, supplied by `finl_unicode`. */
  type PropertyMatcher = (PropertyType, char) -> bool

  /** The four kinds of classifier. */
  datatype UnicodeCategory =
    | Block(block: UnicodeBlock)
    | MultiBlock(blocks: seq<UnicodeBlock>)
    | Collection(members: set<char>)
    | Property(property: PropertyType)

  datatype Category = Category(name: string, unicodeCategory: UnicodeCategory)

  /** `Category::id`: egui's hash of the name, supplied as `idOf`. */
  function Id(category: Category, idOf: string -> nat): nat {
    idOf(category.name)
  }

  /** `Category::id` and `Hash for Category` look only at the name. */
  lemma SameNameSameId(a: Category, b: Category, idOf: string -> nat)
    requires a.name == b.name
    ensures Id(a, idOf) == Id(b, idOf)
  {
  }

  // ---------------------------------------------------------------------
  // UnicodeBlock

  /** The scalar values in [lo, hi], ascending; surrogates are skipped. */
  function ScalarsIn(lo: int, hi: int): seq<char>
    decreases hi - lo
  {
    if hi < lo then [] else ScalarsIn(lo, hi - 1) + (if IsScalar(hi) then [hi as char] else [])
  }

  lemma {:induction false} ScalarsInMembership(lo: int, hi: int, c: char)
    ensures c in ScalarsIn(lo, hi) <==> lo <= c as int <= hi
    decreases hi - lo
  {
    if lo <= hi {
      ScalarsInMembership(lo, hi - 1, c);
    }
  }

  lemma {:induction false} ScalarsInAscending(lo: int, hi: int)
    ensures forall i, j :: 0 <= i < j < |ScalarsIn(lo, hi)| ==> ScalarsIn(lo, hi)[i] < ScalarsIn(lo, hi)[j]
    decreases hi - lo
  {
    if lo <= hi {
      var prefix := ScalarsIn(lo, hi - 1);
      ScalarsInAscending(lo, hi - 1);
      forall k | 0 <= k < |prefix| ensures prefix[k] as int < hi {
        ScalarsInMembership(lo, hi - 1, prefix[k]);
      }
    }
  }

  /** `UnicodeBlock::characters`: every scalar value of the block, in order. */
  method BlockCharacters(b: UnicodeBlock) returns (chars: seq<char>)
    ensures chars == ScalarsIn(b.start, b.end)
    ensures forall c :: c in chars <==> BlockContains(b, c)
    ensures forall i, j :: 0 <= i < j < |chars| ==> chars[i] < chars[j]
  {
    chars := [];
    var code: int := b.start;
    while code <= b.end
      invariant b.start <= code <= if b.start <= b.end then b.end + 1 else b.start
      invariant chars == ScalarsIn(b.start, code - 1)
    {
      match FromU32(code) {
        case Some(c) => chars := chars + [c];
        case None =>
      }
      code := code + 1;
    }
    forall c ensures c in chars <==> BlockContains(b, c) {
      ScalarsInMembership(b.start, b.end, c);
    }
    ScalarsInAscending(b.start, b.end);
  }

  // ---------------------------------------------------------------------
  // UnicodeMultiBlock

  /** `UnicodeMultiBlock::contains`: some member block holds `c`. An empty
      union holds nothing, and a union of one block is that block. */
  predicate MultiBlockContains(blocks: seq<UnicodeBlock>, c: char): (r: bool)
    ensures blocks == [] ==> !r
    ensures |blocks| == 1 ==> (r <==> BlockContains(blocks[0], c))
  {
    exists i | 0 <= i < |blocks| :: BlockContains(blocks[i], c)
  }

  /** The member blocks' characters, concatenated in order, without removing
      duplicates. */
  function MultiBlockScalars(blocks: seq<UnicodeBlock>): seq<char> {
    if blocks == [] then []
    else MultiBlockScalars(blocks[..|blocks| - 1]) + ScalarsIn(blocks[|blocks| - 1].start, blocks[|blocks| - 1].end)
  }

  function TotalSize(blocks: seq<UnicodeBlock>): nat {
    if blocks == [] then 0
    else TotalSize(blocks[..|blocks| - 1]) + |ScalarsIn(blocks[|blocks| - 1].start, blocks[|blocks| - 1].end)|
  }

  lemma {:induction false} MultiBlockScalarsMembership(blocks: seq<UnicodeBlock>, c: char)
    ensures c in MultiBlockScalars(blocks) <==> MultiBlockContains(blocks, c)
    ensures |MultiBlockScalars(blocks)| == TotalSize(blocks)
  {
    if blocks != [] {
      var init := blocks[..|blocks| - 1];
      var last := blocks[|blocks| - 1];
      MultiBlockScalarsMembership(init, c);
      ScalarsInMembership(last.start, last.end, c);
      if MultiBlockContains(init, c) {
        var i :| 0 <= i < |init| && BlockContains(init[i], c);
        assert BlockContains(blocks[i], c);
      }
      if MultiBlockContains(blocks, c) && !BlockContains(last, c) {
        var i :| 0 <= i < |blocks| && BlockContains(blocks[i], c);
        assert BlockContains(init[i], c);
      }
    }
  }

  /** Overlapping member blocks make a character appear more than once. */
  lemma {:induction false} MultiBlockKeepsDuplicates(blocks: seq<UnicodeBlock>, i: nat, j: nat, c: char)
    requires i < j < |blocks|
    requires BlockContains(blocks[i], c) && BlockContains(blocks[j], c)
    ensures multiset(MultiBlockScalars(blocks))[c] >= 2
  {
    var init := blocks[..|blocks| - 1];
    var last := blocks[|blocks| - 1];
    if j == |blocks| - 1 {
      assert BlockContains(init[i], c);
      MultiBlockScalarsMembership(init, c);
      ScalarsInMembership(last.start, last.end, c);
    } else {
      assert init[i] == blocks[i] && init[j] == blocks[j];
      MultiBlockKeepsDuplicates(init, i, j, c);
    }
  }

  /** `UnicodeMultiBlock::characters`. */
  method MultiBlockCharacters(blocks: seq<UnicodeBlock>) returns (chars: seq<char>)
    ensures chars == MultiBlockScalars(blocks)
    ensures |chars| == TotalSize(blocks)
    ensures forall c :: c in chars <==> MultiBlockContains(blocks, c)
  {
    chars := [];
    for k := 0 to |blocks|
      invariant chars == MultiBlockScalars(blocks[..k])
    {
      var more := BlockCharacters(blocks[k]);
      assert blocks[..k + 1][..k] == blocks[..k];
      chars := chars + more;
    }
    assert blocks[..|blocks|] == blocks;
    MultiBlockScalarsMembership(blocks, ' ');
    forall c ensures c in chars <==> MultiBlockContains(blocks, c) {
      MultiBlockScalarsMembership(blocks, c);
    }
  }

  // ---------------------------------------------------------------------
  // UnicodeCollection

  /** `UnicodeCollection::characters`: the members of the set, each once, in
      the set's (unspecified) iteration order. */
  method CollectionCharacters(members: set<char>) returns (chars: seq<char>)
    ensures |chars| == |members|
    ensures forall c :: c in chars <==> c in members
    ensures forall i, j :: 0 <= i < j < |chars| ==> chars[i] != chars[j]
  {
    chars := [];
    var rest := members;
    while rest != {}
      invariant rest <= members
      invariant forall c :: c in chars <==> c in members && c !in rest
      invariant forall i, j :: 0 <= i < j < |chars| ==> chars[i] != chars[j]
      invariant |chars| + |rest| == |members|
      decreases |rest|
    {
      var c :| c in rest;
      chars := chars + [c];
      rest := rest - {c};
    }
  }

  // ---------------------------------------------------------------------
  // Property categories

  /** The code point ranges a property category scans, in scan order. */
  const PropertyScanRanges: seq<(nat, nat)> := [
    (0x0020, 0x007E),   // Basic Latin, printable part
    (0x00A0, 0x024F),   // Latin-1 Supplement to Latin Extended-B
    (0x0370, 0x052F),   // Greek and Coptic to Cyrillic Supplement
    (0x2000, 0x206F),   // General Punctuation
    (0x2070, 0x218F),   // Superscripts and Subscripts to Number Forms
    (0x2190, 0x21FF),   // Arrows
    (0x2200, 0x22FF),   // Mathematical Operators
    (0x20A0, 0x20CF),   // Currency Symbols
    (0x2500, 0x257F),   // Box Drawing
    (0x2600, 0x26FF),   // Miscellaneous Symbols
    (0x1F300, 0x1F5FF)  // Miscellaneous Symbols and Pictographs
  ]

  predicate InScanRanges(ranges: seq<(nat, nat)>, c: char) {
    exists k | 0 <= k < |ranges| :: ranges[k].0 <= c as int <= ranges[k].1
  }

  /** The scalar values in [lo, hi] that have the property, ascending. */
  function MatchingIn(lo: int, hi: int, p: PropertyType, matches: PropertyMatcher): seq<char>
    decreases hi - lo
  {
    if hi < lo then []
    else MatchingIn(lo, hi - 1, p, matches) + (if IsScalar(hi) && matches(p, hi as char) then [hi as char] else [])
  }

  lemma {:induction false} MatchingInMembership(lo: int, hi: int, p: PropertyType, matches: PropertyMatcher, c: char)
    ensures c in MatchingIn(lo, hi, p, matches) <==> lo <= c as int <= hi && matches(p, c)
    decreases hi - lo
  {
    if lo <= hi {
      MatchingInMembership(lo, hi - 1, p, matches, c);
    }
  }

  /** The characters with the property, range by range, in scan order. */
  function PropertyScan(ranges: seq<(nat, nat)>, p: PropertyType, matches: PropertyMatcher): seq<char> {
    if ranges == [] then []
    else PropertyScan(ranges[..|ranges| - 1], p, matches) + MatchingIn(ranges[|ranges| - 1].0, ranges[|ranges| - 1].1, p, matches)
  }

  /** A character is scanned exactly when it has the property and lies in a
      scanned range. */
  lemma {:induction false} PropertyScanMembership(ranges: seq<(nat, nat)>, p: PropertyType, matches: PropertyMatcher, c: char)
    ensures c in PropertyScan(ranges, p, matches) <==> matches(p, c) && InScanRanges(ranges, c)
  {
    if ranges != [] {
      var init := ranges[..|ranges| - 1];
      var last := ranges[|ranges| - 1];
      PropertyScanMembership(init, p, matches, c);
      MatchingInMembership(last.0, last.1, p, matches, c);
      if InScanRanges(init, c) {
        var k :| 0 <= k < |init| && init[k].0 <= c as int <= init[k].1;
        assert ranges[k] == init[k];
      }
      if InScanRanges(ranges, c) && !(last.0 <= c as int <= last.1) {
        var k :| 0 <= k < |ranges| && ranges[k].0 <= c as int <= ranges[k].1;
        assert ranges[k] == init[k];
      }
    }
  }

  /** Two scanned ranges that overlap make a character appear twice. */
  lemma {:induction false} PropertyScanKeepsDuplicates(ranges: seq<(nat, nat)>, i: nat, j: nat, p: PropertyType, matches: PropertyMatcher, c: char)
    requires i < j < |ranges|
    requires ranges[i].0 <= c as int <= ranges[i].1 && ranges[j].0 <= c as int <= ranges[j].1
    requires matches(p, c)
    ensures multiset(PropertyScan(ranges, p, matches))[c] >= 2
  {
    var init := ranges[..|ranges| - 1];
    var last := ranges[|ranges| - 1];
    if j == |ranges| - 1 {
      assert init[i] == ranges[i];
      PropertyScanMembership(init, p, matches, c);
      MatchingInMembership(last.0, last.1, p, matches, c);
    } else {
      assert init[i] == ranges[i] && init[j] == ranges[j];
      PropertyScanKeepsDuplicates(init, i, j, p, matches, c);
    }
  }

  /** The Currency Symbols range lies inside the Superscripts and Subscripts
      range, so every currency character with the property is listed twice. */
  lemma PropertyCharactersRepeatCurrency(p: PropertyType, matches: PropertyMatcher, c: char)
    requires 0x20A0 <= c as int <= 0x20CF && matches(p, c)
    ensures multiset(PropertyScan(PropertyScanRanges, p, matches))[c] >= 2
  {
    PropertyScanKeepsDuplicates(PropertyScanRanges, 4, 7, p, matches, c);
  }

  /** The `Property` arm of `UnicodeCategory::characters`: every character of
      every range, in order, that has the property. `Characters` passes
      `PropertyScanRanges`. */
  method PropertyCharacters(ranges: seq<(nat, nat)>, p: PropertyType, matches: PropertyMatcher) returns (chars: seq<char>)
    ensures chars == PropertyScan(ranges, p, matches)
    ensures forall c :: c in chars <==> matches(p, c) && InScanRanges(ranges, c)
  {
    chars := [];
    for k := 0 to |ranges|
      invariant chars == PropertyScan(ranges[..k], p, matches)
    {
      var start, end := ranges[k].0, ranges[k].1;
      var code: int := start;
      while code <= end
        invariant start <= code <= if start <= end then end + 1 else start
        invariant chars == PropertyScan(ranges[..k], p, matches) + MatchingIn(start, code - 1, p, matches)
      {
        match FromU32(code) {
          case Some(c) =>
            if matches(p, c) {
              chars := chars + [c];
            }
          case None =>
        }
        code := code + 1;
      }
      assert ranges[..k + 1][..k] == ranges[..k];
    }
    assert ranges[..|ranges|] == ranges;
    forall c ensures c in chars <==> matches(p, c) && InScanRanges(ranges, c) {
      PropertyScanMembership(ranges, p, matches, c);
    }
  }

  // ---------------------------------------------------------------------
  // UnicodeCategory dispatch

  /** `UnicodeCategory::contains`. For blocks and unions of blocks it accepts
      exactly the characters `characters()` lists. */
  predicate Contains(category: UnicodeCategory, c: char, matches: PropertyMatcher): (r: bool)
    ensures category.Block? ==> (r <==> c in ScalarsIn(category.block.start, category.block.end))
    ensures category.MultiBlock? ==> (r <==> c in MultiBlockScalars(category.blocks))
  {
    match category
    case Block(b) => ScalarsInMembership(b.start, b.end, c); BlockContains(b, c)
    case MultiBlock(blocks) => MultiBlockScalarsMembership(blocks, c); MultiBlockContains(blocks, c)
    case Collection(members) => c in members
    case Property(p) => matches(p, c)
  }

  /** `chars` is a list `UnicodeCategory::characters` may return. */
  ghost predicate Enumerates(category: UnicodeCategory, matches: PropertyMatcher, chars: seq<char>) {
    match category
    case Block(b) => chars == ScalarsIn(b.start, b.end)
    case MultiBlock(blocks) => chars == MultiBlockScalars(blocks)
    case Collection(members) =>
      |chars| == |members| && (forall c :: c in chars <==> c in members) &&
      (forall i, j :: 0 <= i < j < |chars| ==> chars[i] != chars[j])
    case Property(p) => chars == PropertyScan(PropertyScanRanges, p, matches)
  }

  /** `UnicodeCategory::characters`. */
  method Characters(category: UnicodeCategory, matches: PropertyMatcher) returns (chars: seq<char>)
    ensures Enumerates(category, matches, chars)
    ensures !category.Property? ==> forall c :: c in chars <==> Contains(category, c, matches)
    ensures category.Property? ==> forall c :: c in chars <==> Contains(category, c, matches) && InScanRanges(PropertyScanRanges, c)
  {
    match category {
      case Block(b) => chars := BlockCharacters(b);
      case MultiBlock(blocks) => chars := MultiBlockCharacters(blocks);
      case Collection(members) => chars := CollectionCharacters(members);
      case Property(p) => chars := PropertyCharacters(PropertyScanRanges, p, matches);
    }
  }

  /** `contains` agrees with `characters()`: exactly for blocks, unions of
      blocks and collections; for a property category only within the
      scanned ranges. */
  lemma CharactersAgreeWithContains(category: UnicodeCategory, matches: PropertyMatcher, chars: seq<char>, c: char)
    requires Enumerates(category, matches, chars)
    ensures !category.Property? ==> (c in chars <==> Contains(category, c, matches))
    ensures category.Property? ==> (c in chars <==> Contains(category, c, matches) && InScanRanges(PropertyScanRanges, c))
  {
    match category {
      case Block(b) => ScalarsInMembership(b.start, b.end, c);
      case MultiBlock(blocks) => MultiBlockScalarsMembership(blocks, c);
      case Collection(_) =>
      case Property(p) => PropertyScanMembership(PropertyScanRanges, p, matches, c);
    }
  }

  /** `UnicodeCategory::default`: an empty collection, which contains no
      character whatever the property tests. */
  function DefaultUnicodeCategory(): (r: UnicodeCategory)
    ensures forall c, matches: PropertyMatcher :: !Contains(r, c, matches)
  {
    Collection({})
  }

  lemma DefaultCategoryIsEmpty(matches: PropertyMatcher, chars: seq<char>, c: char)
    requires Enumerates(DefaultUnicodeCategory(), matches, chars)
    ensures !Contains(DefaultUnicodeCategory(), c, matches)
    ensures chars == []
  {
  }

  // ---------------------------------------------------------------------
  // create_default_categories

  /** The multi-block table, in source order (including "Currency"). */
  const CategoryData: seq<(string, seq<UnicodeBlock>)> := [
    ("Latin", [BasicLatin, Latin1Supplement, LatinExtendedA, LatinExtendedB]),
    ("Emoji", [Emoticons, MiscellaneousSymbolsAndPictographs, SupplementalSymbolsAndPictographs, TransportAndMapSymbols]),
    ("Arrows", [Arrows, SupplementalArrowsA, SupplementalArrowsB, SupplementalArrowsC, MiscellaneousSymbolsAndArrows]),
    ("Math", [MathematicalOperators, SupplementalMathematicalOperators, MathematicalAlphanumericSymbols,
              MiscellaneousMathematicalSymbolsA, MiscellaneousMathematicalSymbolsB]),
    ("Technical", [MiscellaneousTechnical, ControlPictures, OpticalCharacterRecognition]),
    ("Symbols", [MiscellaneousSymbols, MiscellaneousSymbolsAndPictographs]),
    ("Currency", [CurrencySymbols]),
    ("Music", [MusicalSymbols, ByzantineMusicalSymbols, AncientGreekMusicalNotation]),
    ("Box Drawing", [BoxDrawing, BlockElements, GeometricShapes])
  ]

  const PropertyCategories: seq<Category> := [
    Category("Uppercase Letters", Property(UppercaseLetters)),
    Category("Lowercase Letters", Property(LowercaseLetters)),
    Category("All Letters", Property(AllLetters)),
    Category("Math Symbols", Property(MathSymbols)),
    Category("Punctuation", Property(Punctuation)),
    Category("Decimal Numbers", Property(DecimalNumbers)),
    Category("All Numbers", Property(AllNumbers)),
    Category("All Symbols", Property(AllSymbols))
  ]

  const SingleBlocks: seq<(string, UnicodeBlock)> := [
    ("Greek and Coptic", GreekAndCoptic),
    ("Cyrillic", Cyrillic),
    ("Hebrew", Hebrew),
    ("Arabic", Arabic)
  ]

  /** The multi-block categories built from `data`, skipping "Currency". */
  function MultiBlockCategories(data: seq<(string, seq<UnicodeBlock>)>): seq<Category> {
    if data == [] then []
    else
      var (name, blocks) := data[|data| - 1];
      MultiBlockCategories(data[..|data| - 1]) +
      (if name == "Currency" then [] else [Category(name, MultiBlock(blocks))])
  }

  function SingleBlockCategories(data: seq<(string, UnicodeBlock)>): seq<Category> {
    if data == [] then []
    else
      var (name, block) := data[|data| - 1];
      SingleBlockCategories(data[..|data| - 1]) + [Category(name, Block(block))]
  }

  const DefaultCategoryNames: seq<string> := [
    "Uppercase Letters", "Lowercase Letters", "All Letters", "Math Symbols",
    "Punctuation", "Decimal Numbers", "All Numbers", "All Symbols",
    "Latin", "Emoji", "Arrows", "Math", "Technical", "Symbols", "Music", "Box Drawing",
    "Greek and Coptic", "Cyrillic", "Hebrew", "Arabic"
  ]

  /** The shape of the default list: 20 categories with these names in this
      order, property categories first, then the multi-block categories
      without "Currency", then the single-block categories. */
  ghost predicate DefaultShape(categories: seq<Category>) {
    |categories| == 20 &&
    (forall i :: 0 <= i < 20 ==> categories[i].name == DefaultCategoryNames[i]) &&
    (forall i :: 0 <= i < 8 ==> categories[i].unicodeCategory.Property?) &&
    (forall i :: 8 <= i < 16 ==> categories[i].unicodeCategory.MultiBlock?) &&
    (forall i :: 16 <= i < 20 ==> categories[i].unicodeCategory.Block?)
  }

  lemma DefaultNamesDistinct()
    ensures forall i, j :: 0 <= i < j < |DefaultCategoryNames| ==> DefaultCategoryNames[i] != DefaultCategoryNames[j]
  {
  }

  lemma MultiBlockCategoriesStep(data: seq<(string, seq<UnicodeBlock>)>, k: nat)
    requires k < |data|
    ensures MultiBlockCategories(data[..k + 1]) == MultiBlockCategories(data[..k]) +
      (if data[k].0 == "Currency" then [] else [Category(data[k].0, MultiBlock(data[k].1))])
  {
    assert data[..k + 1][..k] == data[..k];
  }

  lemma SingleBlockCategoriesStep(data: seq<(string, UnicodeBlock)>, k: nat)
    requires k < |data|
    ensures SingleBlockCategories(data[..k + 1]) == SingleBlockCategories(data[..k]) + [Category(data[k].0, Block(data[k].1))]
  {
    assert data[..k + 1][..k] == data[..k];
  }

  lemma MultiBlockCategoriesFirstFour()
    ensures MultiBlockCategories(CategoryData[..4]) == [
      Category("Latin", MultiBlock(CategoryData[0].1)), Category("Emoji", MultiBlock(CategoryData[1].1)),
      Category("Arrows", MultiBlock(CategoryData[2].1)), Category("Math", MultiBlock(CategoryData[3].1))]
  {
    var d := CategoryData;
    MultiBlockCategoriesStep(d, 0); MultiBlockCategoriesStep(d, 1);
    MultiBlockCategoriesStep(d, 2); MultiBlockCategoriesStep(d, 3);
  }

  lemma MultiBlockCategoriesFirstSeven()
    ensures MultiBlockCategories(CategoryData[..7]) == MultiBlockCategories(CategoryData[..4]) + [
      Category("Technical", MultiBlock(CategoryData[4].1)), Category("Symbols", MultiBlock(CategoryData[5].1))]
  {
    var d := CategoryData;
    MultiBlockCategoriesStep(d, 4); MultiBlockCategoriesStep(d, 5); MultiBlockCategoriesStep(d, 6);
  }

  /** The multi-block categories: the table without "Currency". */
  lemma DefaultMultiBlockCategories()
    ensures MultiBlockCategories(CategoryData) == [
      Category("Latin", MultiBlock(CategoryData[0].1)), Category("Emoji", MultiBlock(CategoryData[1].1)),
      Category("Arrows", MultiBlock(CategoryData[2].1)), Category("Math", MultiBlock(CategoryData[3].1)),
      Category("Technical", MultiBlock(CategoryData[4].1)), Category("Symbols", MultiBlock(CategoryData[5].1)),
      Category("Music", MultiBlock(CategoryData[7].1)), Category("Box Drawing", MultiBlock(CategoryData[8].1))]
  {
    var d := CategoryData;
    MultiBlockCategoriesFirstFour();
    MultiBlockCategoriesFirstSeven();
    MultiBlockCategoriesStep(d, 7); MultiBlockCategoriesStep(d, 8);
    assert d[..9] == d;
  }

  lemma DefaultSingleBlockCategories()
    ensures SingleBlockCategories(SingleBlocks) == [
      Category("Greek and Coptic", Block(GreekAndCoptic)), Category("Cyrillic", Block(Cyrillic)),
      Category("Hebrew", Block(Hebrew)), Category("Arabic", Block(Arabic))]
  {
    var sb := SingleBlocks;
    SingleBlockCategoriesStep(sb, 0); SingleBlockCategoriesStep(sb, 1);
    SingleBlockCategoriesStep(sb, 2); SingleBlockCategoriesStep(sb, 3);
    assert sb[..4] == sb;
  }

  lemma DefaultCategoriesShape()
    ensures DefaultShape(PropertyCategories + MultiBlockCategories(CategoryData) + SingleBlockCategories(SingleBlocks))
  {
    DefaultMultiBlockCategories();
    DefaultSingleBlockCategories();
  }

  /** `create_default_categories`. */
  method CreateDefaultCategories() returns (categories: seq<Category>)
    ensures categories == PropertyCategories + MultiBlockCategories(CategoryData) + SingleBlockCategories(SingleBlocks)
    ensures DefaultShape(categories)
    ensures forall i, j :: 0 <= i < j < |categories| ==> categories[i].name != categories[j].name
  {
    categories := PropertyCategories;
    var data := CategoryData;
    for k := 0 to |data|
      invariant categories == PropertyCategories + MultiBlockCategories(data[..k])
    {
      var (name, blocks) := data[k];
      assert data[..k + 1][..k] == data[..k];
      if name == "Currency" {
        continue;
      }
      categories := categories + [Category(name, MultiBlock(blocks))];
    }
    assert data[..|data|] == data;
    var singles := SingleBlocks;
    for k := 0 to |singles|
      invariant categories == PropertyCategories + MultiBlockCategories(data) + SingleBlockCategories(singles[..k])
    {
      var (name, block) := singles[k];
      assert singles[..k + 1][..k] == singles[..k];
      categories := categories + [Category(name, Block(block))];
    }
    assert singles[..|singles|] == singles;
    DefaultCategoriesShape();
    DefaultNamesDistinct();
  }
}

=== FILE: glyph.dfy ===
/** Display names of characters (`glyph.rs`): the per-character case-mapping
    expansion, `capitalize`, `title_case`, the hard-coded names of control and
    format characters, and the layered name resolution. */
module Glyph {
  import opened Unicode
  import opened Text
  import opened Numeral

  /** A table of the `unicode_case_mapping` crate: the codes a character maps
      to, where 0 marks an unused slot. */
  type CaseTable = char -> seq<nat>

  // ---------------------------------------------------------------------
  // to_lowercase_string / to_uppercase_string

  /** The characters named by the non-zero codes that are scalar values, in
      order. */
  function MappedChars(codes: seq<nat>): seq<char> {
    if codes == [] then []
    else
      var code := codes[|codes| - 1];
      MappedChars(codes[..|codes| - 1]) + (if code != 0 && IsScalar(code) then [code as char] else [])
  }

  /** A character appears in the expansion exactly when it is not NUL and its
      code is in the table entry. */
  lemma {:induction false} MappedCharsMembership(codes: seq<nat>, x: char)
    ensures x in MappedChars(codes) <==> x as int != 0 && x as int in codes
  {
    if codes != [] {
      MappedCharsMembership(codes[..|codes| - 1], x);
      assert codes == codes[..|codes| - 1] + [codes[|codes| - 1]];
    }
  }

  /** The mapped characters of two runs of codes are those of each run, one
      after the other: with `MappedSingle`, every code is kept or dropped in
      place, so order and repetitions are those of the table entry. */
  lemma {:induction false} MappedCharsAppend(a: seq<nat>, b: seq<nat>)
    ensures MappedChars(a + b) == MappedChars(a) + MappedChars(b)
    decreases |b|
  {
    if b == [] {
      assert a + b == a;
    } else {
      var init := b[..|b| - 1];
      assert (a + b)[..|a + b| - 1] == a + init;
      assert (a + b)[|a + b| - 1] == b[|b| - 1];
      MappedCharsAppend(a, init);
    }
  }

  lemma MappedSingle(code: nat)
    ensures MappedChars([code]) == if code != 0 && IsScalar(code) then [code as char] else []
  {
    assert [code][..0] == [];
  }

  /** The expansion of one character: its mapped characters, or the
      character itself when the table gives none. */
  function CaseExpansion(c: char, codes: seq<nat>): (r: string)
    ensures r != []
    ensures forall x :: x in r ==> x == c || x as int in codes
    ensures !HasMapping(codes) ==> r == [c]
    ensures HasMapping(codes) ==> forall x :: x in r <==> x as int != 0 && x as int in codes
    ensures HasMapping(codes) ==> r == MappedChars(codes)
  {
    var mapped := MappedChars(codes);
    forall x ensures x in mapped <==> x as int != 0 && x as int in codes {
      MappedCharsMembership(codes, x);
    }
    MappedCharsEmpty(codes);
    if mapped == [] then [c] else mapped
  }

  /** Upper-casing ß through the entry [0x53, 0x53, 0] gives "SS": every
      non-zero code is pushed, repeats included, in order. */
  lemma SharpSExpansion()
    ensures CaseExpansion('\U{DF}', [0x53, 0x53, 0]) == "SS"
  {
    MappedCharsAppend([0x53, 0x53], [0]);
    MappedCharsAppend([0x53], [0x53]);
    MappedSingle(0x53);
    MappedSingle(0);
    assert [0x53, 0x53] + [0] == [0x53, 0x53, 0];
    assert [0x53] + [0x53] == [0x53, 0x53];
  }

  /** Some code of the table entry names a character other than NUL. */
  predicate HasMapping(codes: seq<nat>) {
    exists k :: 0 <= k < |codes| && codes[k] != 0 && IsScalar(codes[k])
  }

  /** The expansion falls back to the character itself exactly when no code
      names a character. */
  lemma MappedCharsEmpty(codes: seq<nat>)
    ensures MappedChars(codes) == [] <==> !HasMapping(codes)
  {
    if HasMapping(codes) {
      var k :| 0 <= k < |codes| && codes[k] != 0 && IsScalar(codes[k]);
      MappedCharsMembership(codes, codes[k] as char);
    }
    if MappedChars(codes) != [] {
      var x := MappedChars(codes)[0];
      MappedCharsMembership(codes, x);
      var k :| 0 <= k < |codes| && codes[k] == x as int;
    }
  }

  /** The loop of `to_lowercase_string` and `to_uppercase_string` that builds
      one character's expansion. */
  method ExpandCase(c: char, codes: seq<nat>) returns (result: string)
    ensures result == CaseExpansion(c, codes)
  {
    result := [];
    for k := 0 to |codes|
      invariant result == MappedChars(codes[..k])
    {
      var code := codes[k];
      assert codes[..k + 1][..k] == codes[..k];
      if code != 0 {
        match FromU32(code) {
          case Some(ch) => result := result + [ch];
          case None =>
        }
      }
    }
    assert codes[..|codes|] == codes;
    if result == [] {
      result := [c];
    }
  }

  /** `to_lowercase_string` (with the lower-case table) and
      `to_uppercase_string` (with the upper-case table): every character
      replaced by its expansion. */
  function CaseString(table: CaseTable, s: string): (r: string)
    ensures |r| >= |s|
    ensures s == [] <==> r == []
  {
    if s == [] then [] else CaseExpansion(s[0], table(s[0])) + CaseString(table, s[1..])
  }

  /** Case mapping distributes over concatenation. */
  lemma {:induction false} CaseStringAppend(table: CaseTable, a: string, b: string)
    ensures CaseString(table, a + b) == CaseString(table, a) + CaseString(table, b)
  {
    if a == [] {
      assert a + b == b;
    } else {
      assert (a + b)[0] == a[0];
      assert (a + b)[1..] == a[1..] + b;
      CaseStringAppend(table, a[1..], b);
    }
  }

  /** The assumption the word-level lemmas take about a table: a character
      that is not whitespace never expands to whitespace. */
  ghost predicate KeepsWords(table: CaseTable) {
    forall c :: !IsWhitespace(c) ==> NoWhitespace(CaseExpansion(c, table(c)))
  }

  lemma {:induction false} CaseStringWord(table: CaseTable, w: string)
    requires KeepsWords(table) && NoWhitespace(w)
    ensures NoWhitespace(CaseString(table, w))
  {
    if w != [] {
      CaseStringWord(table, w[1..]);
      NoWhitespaceConcat(CaseExpansion(w[0], table(w[0])), CaseString(table, w[1..]));
    }
  }

  /** Tables that agree with ASCII case conversion on ASCII characters. */
  ghost predicate AsciiTables(upper: CaseTable, lower: CaseTable) {
    forall c :: c as int < 0x80 ==> upper(c) == [AsciiUpper(c) as nat] && lower(c) == [AsciiLower(c) as nat]
  }

  // ---------------------------------------------------------------------
  // capitalize / title_case

  /** `capitalize`: the upper-cased first character followed by the
      lower-cased rest. */
  function Capitalize(upper: CaseTable, lower: CaseTable, s: string): (r: string)
    ensures s == [] <==> r == []
    ensures |r| >= |s|
    ensures s != [] ==> HasPrefix(r, CaseExpansion(s[0], upper(s[0])))
    ensures s != [] ==> r[|CaseExpansion(s[0], upper(s[0]))|..] == CaseString(lower, s[1..])
  {
    if s == [] then [] else CaseString(upper, [s[0]]) + CaseString(lower, s[1..])
  }

  /** Capitalizing a word gives a word. */
  lemma CapitalizeWord(upper: CaseTable, lower: CaseTable, w: string)
    requires KeepsWords(upper) && KeepsWords(lower) && IsWord(w)
    ensures IsWord(Capitalize(upper, lower, w))
  {
    CaseStringWord(upper, [w[0]]);
    CaseStringWord(lower, w[1..]);
    NoWhitespaceConcat(CaseString(upper, [w[0]]), CaseString(lower, w[1..]));
  }

  /** With ASCII tables, an ASCII character expands to its ASCII case
      conversion. */
  lemma AsciiExpansion(upper: CaseTable, lower: CaseTable, c: char)
    requires AsciiTables(upper, lower) && c as int < 0x80
    ensures CaseExpansion(c, upper(c)) == [AsciiUpper(c)]
    ensures CaseExpansion(c, lower(c)) == [AsciiLower(c)]
  {
    MappedSingle(AsciiUpper(c) as nat);
    MappedSingle(AsciiLower(c) as nat);
  }

  /** With ASCII tables, ASCII text is case-mapped character by character. */
  lemma {:induction false} CaseStringAscii(upper: CaseTable, lower: CaseTable, s: string)
    requires AsciiTables(upper, lower) && IsAsciiString(s)
    ensures CaseString(upper, s) == AsciiUpperString(s)
    ensures CaseString(lower, s) == AsciiLowerString(s)
  {
    if s != [] {
      AsciiExpansion(upper, lower, s[0]);
      CaseStringAscii(upper, lower, s[1..]);
    }
  }

  /** With ASCII tables, capitalizing ASCII text upper-cases its first
      character and lower-cases the rest. */
  lemma CapitalizeAscii(upper: CaseTable, lower: CaseTable, s: string)
    requires AsciiTables(upper, lower) && IsAsciiString(s) && s != []
    ensures Capitalize(upper, lower, s) == [AsciiUpper(s[0])] + AsciiLowerString(s[1..])
  {
    AsciiExpansion(upper, lower, s[0]);
    CaseStringAscii(upper, lower, s[1..]);
  }

  /** Capitalizing is upper-casing the first character and lower-casing the
      rest: with ASCII tables, "LETTER" becomes "Letter". */
  lemma CapitalizeExample(upper: CaseTable, lower: CaseTable)
    requires AsciiTables(upper, lower)
    ensures Capitalize(upper, lower, "LETTER") == "Letter"
  {
    CapitalizeAscii(upper, lower, "LETTER");
  }

  /** How `title_case` treats one word: a word of at most three bytes other
      than "And" is lower-cased, any other word capitalized. */
  function TitleWord(upper: CaseTable, lower: CaseTable, w: string): (r: string)
    ensures w == [] <==> r == []
  {
    if Utf8Length(w) <= 3 && w != "And" then CaseString(lower, w) else Capitalize(upper, lower, w)
  }

  lemma TitleWordIsWord(upper: CaseTable, lower: CaseTable, w: string)
    requires KeepsWords(upper) && KeepsWords(lower) && IsWord(w)
    ensures IsWord(TitleWord(upper, lower, w))
  {
    if Utf8Length(w) <= 3 && w != "And" {
      CaseStringWord(lower, w);
    } else {
      CapitalizeWord(upper, lower, w);
    }
  }

  function TitleWords(upper: CaseTable, lower: CaseTable, words: seq<string>): (r: seq<string>)
    ensures |r| == |words|
    ensures forall i :: 0 <= i < |words| ==> r[i] == TitleWord(upper, lower, words[i])
  {
    if words == [] then [] else [TitleWord(upper, lower, words[0])] + TitleWords(upper, lower, words[1..])
  }

  /** `title_case`: the words of `s`, each treated by `TitleWord`, joined by
      single spaces. */
  function TitleCase(upper: CaseTable, lower: CaseTable, s: string): (r: string)
    ensures AllWhitespace(s) ==> r == []
  {
    SplitBlank(s);
    Join(TitleWords(upper, lower, SplitWhitespace(s)), " ")
  }

  /** The words of the result are the treated words of the input, in order;
      so the word count is preserved. */
  lemma TitleCaseWords(upper: CaseTable, lower: CaseTable, s: string)
    requires KeepsWords(upper) && KeepsWords(lower)
    ensures SplitWhitespace(TitleCase(upper, lower, s)) == TitleWords(upper, lower, SplitWhitespace(s))
    ensures |SplitWhitespace(TitleCase(upper, lower, s))| == |SplitWhitespace(s)|
  {
    var words := SplitWhitespace(s);
    var titled := TitleWords(upper, lower, words);
    forall i | 0 <= i < |titled| ensures IsWord(titled[i]) {
      TitleWordIsWord(upper, lower, words[i]);
    }
    SplitJoin(titled);
  }

  /** A string with at least one word has a non-empty title case. */
  lemma TitleCaseNonEmpty(upper: CaseTable, lower: CaseTable, s: string)
    requires !AllWhitespace(s)
    ensures TitleCase(upper, lower, s) != []
  {
    SplitBlank(s);
    var titled := TitleWords(upper, lower, SplitWhitespace(s));
    assert titled[0] != [];
    JoinNonEmpty(titled);
  }

  lemma {:induction false} JoinNonEmpty(words: seq<string>)
    requires words != [] && words[0] != []
    ensures Join(words, " ") != []
  {
  }

  lemma SplitLetterA()
    ensures SplitWhitespace("LETTER A") == ["LETTER", "A"]
  {
    SplitTwoWords("LETTER", "A");
    assert "LETTER" + " " + "A" == "LETTER A";
  }

  lemma TitleWordLetter(upper: CaseTable, lower: CaseTable)
    requires AsciiTables(upper, lower)
    ensures TitleWord(upper, lower, "LETTER") == "Letter"
  {
    AsciiUtf8Length("LETTER");
    CapitalizeExample(upper, lower);
  }


  lemma TitleWordA(upper: CaseTable, lower: CaseTable)
    requires AsciiTables(upper, lower)
    ensures TitleWord(upper, lower, "A") == "a"
  {
    AsciiUtf8Length("A");
    CaseStringAscii(upper, lower, "A");
  }

  /** Short words are lower-cased, even in a Unicode name: with ASCII
      tables, "LETTER A" becomes "Letter a". */
  lemma TitleCaseExample(upper: CaseTable, lower: CaseTable)
    requires AsciiTables(upper, lower)
    ensures TitleCase(upper, lower, "LETTER A") == "Letter a"
  {
    TitleCaseLetterA(upper, lower);
    JoinLetterA();
  }

  lemma TitleCaseLetterA(upper: CaseTable, lower: CaseTable)
    requires AsciiTables(upper, lower)
    ensures TitleCase(upper, lower, "LETTER A") == Join(["Letter", "a"], " ")
  {
    SplitLetterA();
    TitleWordLetter(upper, lower);
    TitleWordA(upper, lower);
    assert TitleWords(upper, lower, ["LETTER", "A"]) == ["Letter", "a"];
  }

  lemma JoinLetterA()
    ensures Join(["Letter", "a"], " ") == "Letter a"
  {
  }


  // ---------------------------------------------------------------------
  // Adobe glyph names

  /** The camel-case spacing of an Adobe glyph name: a space is inserted
      before every upper-case character except the first character. */
  function CamelSpaced(name: string, isUpper: char -> bool): (r: string)
    ensures r == [] <==> name == []
    ensures name != [] ==> r[0] == name[0]
    ensures |r| >= |name|
  {
    if name == [] then [] else [name[0]] + SpaceUppers(name[1..], isUpper)
  }

  function SpaceUppers(s: string, isUpper: char -> bool): (r: string)
    ensures |r| >= |s|
  {
    if s == [] then []
    else (if isUpper(s[0]) then [' ', s[0]] else [s[0]]) + SpaceUppers(s[1..], isUpper)
  }

  /** `s` without its spaces. */
  function RemoveSpaces(s: string): string {
    if s == [] then [] else (if s[0] == ' ' then [] else [s[0]]) + RemoveSpaces(s[1..])
  }

  function UpperCount(s: string, isUpper: char -> bool): nat {
    if s == [] then 0 else (if isUpper(s[0]) then 1 else 0) + UpperCount(s[1..], isUpper)
  }

  lemma {:induction false} RemoveSpacesAppend(a: string, b: string)
    ensures RemoveSpaces(a + b) == RemoveSpaces(a) + RemoveSpaces(b)
  {
    if a == [] {
      assert a + b == b;
    } else {
      assert (a + b)[1..] == a[1..] + b;
      RemoveSpacesAppend(a[1..], b);
    }
  }

  lemma {:induction false} SpaceUppersFacts(s: string, isUpper: char -> bool)
    ensures RemoveSpaces(SpaceUppers(s, isUpper)) == RemoveSpaces(s)
    ensures |SpaceUppers(s, isUpper)| == |s| + UpperCount(s, isUpper)
  {
    if s != [] {
      SpaceUppersFacts(s[1..], isUpper);
      var head := if isUpper(s[0]) then [' ', s[0]] else [s[0]];
      RemoveSpacesAppend(head, SpaceUppers(s[1..], isUpper));
      if isUpper(s[0]) {
        assert head[1..] == [s[0]];
      }
    }
  }

  lemma {:induction false} RemoveSpacesNoSpace(s: string)
    requires ' ' !in s
    ensures RemoveSpaces(s) == s
  {
    if s != [] {
      assert s[0] in s;
      assert ' ' !in s[1..];
      RemoveSpacesNoSpace(s[1..]);
    }
  }

  /** An Adobe name has no spaces, so deleting the spaces of its spaced
      form gives the name back. */
  lemma CamelSpacedRoundTrip(name: string, isUpper: char -> bool)
    requires ' ' !in name
    ensures RemoveSpaces(CamelSpaced(name, isUpper)) == name
  {
    if name != [] {
      CamelSpacedFacts(name, isUpper);
    }
    RemoveSpacesNoSpace(name);
  }

  /** Spacing keeps every character in order and inserts exactly one space
      per upper-case character after the first position: character `i` of
      the name moves right by the number of upper-case characters in
      positions 1 to `i`, and an upper-case one has a space just before it. */
  lemma CamelSpacedFacts(name: string, isUpper: char -> bool)
    requires name != []
    ensures RemoveSpaces(CamelSpaced(name, isUpper)) == RemoveSpaces(name)
    ensures |CamelSpaced(name, isUpper)| == |name| + UpperCount(name[1..], isUpper)
    ensures CamelSpaced(name, isUpper)[0] == name[0]
    ensures forall i :: 1 <= i < |name| ==> CamelSpacedAt(name, isUpper, i)
  {
    SpaceUppersFacts(name[1..], isUpper);
    RemoveSpacesAppend([name[0]], SpaceUppers(name[1..], isUpper));
    RemoveSpacesAppend([name[0]], name[1..]);
    assert name == [name[0]] + name[1..];
    CamelSpacedPositions(name, isUpper);
  }

  lemma CamelSpacedPositions(name: string, isUpper: char -> bool)
    requires name != []
    ensures forall i :: 1 <= i < |name| ==> CamelSpacedAt(name, isUpper, i)
  {
    forall i | 1 <= i < |name| ensures CamelSpacedAt(name, isUpper, i) {
      SpaceUppersAt(name[1..], isUpper, i - 1);
      assert name[1..][..i] == name[1..i + 1];
    }
  }

  /** Where character `i` (past the first) of the name lands in the spaced
      name, and the space before it when it is upper-case. */
  predicate CamelSpacedAt(name: string, isUpper: char -> bool, i: nat)
    requires 1 <= i < |name|
  {
    var spaced := CamelSpaced(name, isUpper);
    var p := i + UpperCount(name[1..i + 1], isUpper);
    p < |spaced| && spaced[p] == name[i] && (isUpper(name[i]) ==> spaced[p - 1] == ' ')
  }

  lemma {:induction false} SpaceUppersAt(s: string, isUpper: char -> bool, i: nat)
    requires i < |s|
    ensures var p := i + UpperCount(s[..i + 1], isUpper);
      p < |SpaceUppers(s, isUpper)| && SpaceUppers(s, isUpper)[p] == s[i] &&
      (isUpper(s[i]) ==> p >= 1 && SpaceUppers(s, isUpper)[p - 1] == ' ')
    decreases i
  {
    var head := if isUpper(s[0]) then [' ', s[0]] else [s[0]];
    assert SpaceUppers(s, isUpper) == head + SpaceUppers(s[1..], isUpper);
    assert s[..i + 1][1..] == s[1..][..i];
    if i > 0 {
      SpaceUppersAt(s[1..], isUpper, i - 1);
      assert s[1..][i - 1] == s[i];
    }
  }

  /** In the spaced form of a name without spaces, every space comes just
      before an upper-case character of the name. */
  lemma CamelSpacedSpaces(name: string, isUpper: char -> bool)
    requires name != [] && ' ' !in name
    ensures var spaced := CamelSpaced(name, isUpper);
      forall j :: 0 <= j < |spaced| && spaced[j] == ' ' ==>
        j + 1 < |spaced| && spaced[j + 1] != ' ' && isUpper(spaced[j + 1])
  {
    assert name[0] in name;
    assert ' ' !in name[1..];
    SpaceUppersSpaces(name[1..], isUpper);
    assert CamelSpaced(name, isUpper) == [name[0]] + SpaceUppers(name[1..], isUpper);
    SpacesShift([name[0]], SpaceUppers(name[1..], isUpper), isUpper);
  }

  /** Putting a prefix without spaces in front keeps every space just before
      an upper-case character. */
  lemma SpacesShift(head: string, rest: string, isUpper: char -> bool)
    requires forall j :: 0 <= j < |rest| && rest[j] == ' ' ==> j + 1 < |rest| && rest[j + 1] != ' ' && isUpper(rest[j + 1])
    requires forall j :: 0 <= j < |head| && head[j] == ' ' ==> j + 1 < |head| && head[j + 1] != ' ' && isUpper(head[j + 1])
    requires head != [] && head[|head| - 1] != ' '
    ensures forall j :: 0 <= j < |head + rest| && (head + rest)[j] == ' ' ==>
      j + 1 < |head + rest| && (head + rest)[j + 1] != ' ' && isUpper((head + rest)[j + 1])
  {
    forall j | 0 <= j < |head + rest| && (head + rest)[j] == ' '
      ensures j + 1 < |head + rest| && (head + rest)[j + 1] != ' ' && isUpper((head + rest)[j + 1])
    {
      if j >= |head| {
        assert rest[j - |head|] == ' ';
        assert (head + rest)[j + 1] == rest[j + 1 - |head|];
      } else {
        assert head[j] == ' ';
        assert (head + rest)[j + 1] == head[j + 1];
      }
    }
  }

  lemma {:induction false} SpaceUppersSpaces(s: string, isUpper: char -> bool)
    requires ' ' !in s
    ensures var spaced := SpaceUppers(s, isUpper);
      forall j :: 0 <= j < |spaced| && spaced[j] == ' ' ==>
        j + 1 < |spaced| && spaced[j + 1] != ' ' && isUpper(spaced[j + 1])
  {
    if s != [] {
      assert s[0] in s;
      assert ' ' !in s[1..];
      SpaceUppersSpaces(s[1..], isUpper);
      var head := if isUpper(s[0]) then [' ', s[0]] else [s[0]];
      assert SpaceUppers(s, isUpper) == head + SpaceUppers(s[1..], isUpper);
      SpacesShift(head, SpaceUppers(s[1..], isUpper), isUpper);
    }
  }

  // ---------------------------------------------------------------------
  // Names

  /** The characters `special_char_name` names: the C0 controls, space,
      delete, and the listed space, format and annotation characters. */
  predicate HasSpecialName(c: char) {
    IsLatinSpecial(c) || IsPunctuationSpecial(c)
  }

  /** The named characters of the Basic Latin and Latin-1 blocks. */
  predicate IsLatinSpecial(c: char) {
    c <= '\U{0020}' || c == '\U{007F}' || c == '\U{00A0}' || c == '\U{00AD}'
  }

  /** The named spaces, format characters and specials above U+2000. */
  predicate IsPunctuationSpecial(c: char) {
    ('\U{2000}' <= c <= '\U{200F}') || ('\U{2028}' <= c <= '\U{202F}') ||
    ('\U{205F}' <= c <= '\U{2064}') || ('\U{2066}' <= c <= '\U{206F}') ||
    c == '\U{FEFF}' || ('\U{FFF9}' <= c <= '\U{FFFD}')
  }

  function LatinSpecialName(c: char): (r: Option<string>)
    ensures r.Some? <==> IsLatinSpecial(c)
    ensures r.Some? ==> r.value != []
  {
    match c
    case '\U{0000}' => Some("Null")
    case '\U{0001}' => Some("Start of Heading")
    case '\U{0002}' => Some("Start of Text")
    case '\U{0003}' => Some("End of Text")
    case '\U{0004}' => Some("End of Transmission")
    case '\U{0005}' => Some("Enquiry")
    case '\U{0006}' => Some("Acknowledge")
    case '\U{0007}' => Some("Bell")
    case '\U{0008}' => Some("Backspace")
    case '\U{0009}' => Some("Tab")
    case '\U{000A}' => Some("Line Feed")
    case '\U{000B}' => Some("Vertical Tab")
    case '\U{000C}' => Some("Form Feed")
    case '\U{000D}' => Some("Carriage Return")
    case '\U{000E}' => Some("Shift Out")
    case '\U{000F}' => Some("Shift In")
    case '\U{0010}' => Some("Data Link Escape")
    case '\U{0011}' => Some("Device Control 1")
    case '\U{0012}' => Some("Device Control 2")
    case '\U{0013}' => Some("Device Control 3")
    case '\U{0014}' => Some("Device Control 4")
    case '\U{0015}' => Some("Negative Acknowledge")
    case '\U{0016}' => Some("Synchronous Idle")
    case '\U{0017}' => Some("End of Transmission Block")
    case '\U{0018}' => Some("Cancel")
    case '\U{0019}' => Some("End of Medium")
    case '\U{001A}' => Some("Substitute")
    case '\U{001B}' => Some("Escape")
    case '\U{001C}' => Some("File Separator")
    case '\U{001D}' => Some("Group Separator")
    case '\U{001E}' => Some("Record Separator")
    case '\U{001F}' => Some("Unit Separator")
    case '\U{0020}' => Some("Space")
    case '\U{007F}' => Some("Delete")
    case '\U{00A0}' => Some("Non-breaking Space")
    case '\U{00AD}' => Some("Soft Hyphen")
    case _ => None
  }

  function PunctuationSpecialName(c: char): (r: Option<string>)
    ensures r.Some? <==> IsPunctuationSpecial(c)
    ensures r.Some? ==> r.value != []
  {
    match c
    case '\U{2000}' => Some("En Quad")
    case '\U{2001}' => Some("Em Quad")
    case '\U{2002}' => Some("En Space")
    case '\U{2003}' => Some("Em Space")
    case '\U{2004}' => Some("Three-per-em Space")
    case '\U{2005}' => Some("Four-per-em Space")
    case '\U{2006}' => Some("Six-per-em Space")
    case '\U{2007}' => Some("Figure Space")
    case '\U{2008}' => Some("Punctuation Space")
    case '\U{2009}' => Some("Thin Space")
    case '\U{200A}' => Some("Hair Space")
    case '\U{200B}' => Some("Zero Width Space")
    case '\U{200C}' => Some("Zero Width Non-joiner")
    case '\U{200D}' => Some("Zero Width Joiner")
    case '\U{200E}' => Some("Left-to-right Mark")
    case '\U{200F}' => Some("Right-to-left Mark")
    case '\U{2028}' => Some("Line Separator")
    case '\U{2029}' => Some("Paragraph Separator")
    case '\U{202A}' => Some("Left-to-right Embedding")
    case '\U{202B}' => Some("Right-to-left Embedding")
    case '\U{202C}' => Some("Pop Directional Formatting")
    case '\U{202D}' => Some("Left-to-right Override")
    case '\U{202E}' => Some("Right-to-left Override")
    case '\U{202F}' => Some("Narrow No-break Space")
    case '\U{205F}' => Some("Medium Mathematical Space")
    case '\U{2060}' => Some("Word Joiner")
    case '\U{2061}' => Some("Function Application")
    case '\U{2062}' => Some("Invisible Times")
    case '\U{2063}' => Some("Invisible Separator")
    case '\U{2064}' => Some("Invisible Plus")
    case '\U{2066}' => Some("Left-to-right Isolate")
    case '\U{2067}' => Some("Right-to-left Isolate")
    case '\U{2068}' => Some("First Strong Isolate")
    case '\U{2069}' => Some("Pop Directional Isolate")
    case '\U{206A}' => Some("Inhibit Symmetric Swapping")
    case '\U{206B}' => Some("Activate Symmetric Swapping")
    case '\U{206C}' => Some("Inhibit Arabic Form Shaping")
    case '\U{206D}' => Some("Activate Arabic Form Shaping")
    case '\U{206E}' => Some("National Digit Shapes")
    case '\U{206F}' => Some("Nominal Digit Shapes")
    case '\U{FEFF}' => Some("Zero Width No-break Space")
    case '\U{FFF9}' => Some("Interlinear Annotation Anchor")
    case '\U{FFFA}' => Some("Interlinear Annotation Separator")
    case '\U{FFFB}' => Some("Interlinear Annotation Terminator")
    case '\U{FFFC}' => Some("Object Replacement Character")
    case '\U{FFFD}' => Some("Replacement Character")
    case _ => None
  }

  /** `special_char_name`: the hard-coded names of control, space and format
      characters. The two groups cover disjoint ranges, so trying them in
      turn is the single match of the source. */
  function SpecialCharName(c: char): (r: Option<string>)
    ensures r.Some? <==> HasSpecialName(c)
    ensures r.Some? ==> r.value != []
  {
    if IsLatinSpecial(c) then LatinSpecialName(c) else PunctuationSpecialName(c)
  }

  /** The name services of other crates: `unicode_names2::name`,
      `glyph_names::glyph_name`, `char::is_uppercase`, and the tables of
      `unicode_case_mapping`. */
  datatype Naming = Naming(
    unicodeName: char -> Option<string>,
    glyphName: nat -> Option<string>,
    isUpper: char -> bool,
    upper: CaseTable,
    lower: CaseTable)

  /** `char_name`: the hard-coded name, else the title-cased Unicode name,
      else the spaced and title-cased Adobe name, else "U+XXXX". */
  function CharName(c: char, naming: Naming): (r: string)
    ensures SpecialCharName(c).Some? ==> r == SpecialCharName(c).value
    ensures SpecialCharName(c).None? && naming.unicodeName(c).Some? ==>
      r == TitleCase(naming.upper, naming.lower, naming.unicodeName(c).value)
    ensures SpecialCharName(c).None? && naming.unicodeName(c).None? && naming.glyphName(c as nat).Some? ==>
      r == TitleCase(naming.upper, naming.lower, CamelSpaced(naming.glyphName(c as nat).value, naming.isUpper))
    ensures SpecialCharName(c).None? && naming.unicodeName(c).None? && naming.glyphName(c as nat).None? ==>
      r == CodePointLabel(c)
  {
    match SpecialCharName(c)
    case Some(name) => name
    case None =>
      match naming.unicodeName(c)
      case Some(name) => TitleCase(naming.upper, naming.lower, name)
      case None =>
        match naming.glyphName(c as nat)
        case Some(adobe) => TitleCase(naming.upper, naming.lower, CamelSpaced(adobe, naming.isUpper))
        case None => CodePointLabel(c)
  }

  /** A name is never empty, provided the name services never return a
      blank name. */
  lemma CharNameNonEmpty(c: char, naming: Naming)
    requires naming.unicodeName(c).Some? ==> !AllWhitespace(naming.unicodeName(c).value)
    requires naming.glyphName(c as nat).Some? ==> !AllWhitespace(naming.glyphName(c as nat).value)
    ensures CharName(c, naming) != []
  {
    if SpecialCharName(c).None? && naming.unicodeName(c).None? && naming.glyphName(c as nat).Some? {
      var adobe := naming.glyphName(c as nat).value;
      var k :| 0 <= k < |adobe| && !IsWhitespace(adobe[k]);
      var spaced := CamelSpaced(adobe, naming.isUpper);
      SpacedKeepsNonSpace(adobe, naming.isUpper, k);
      TitleCaseNonEmpty(naming.upper, naming.lower, spaced);
    } else if SpecialCharName(c).None? && naming.unicodeName(c).Some? {
      TitleCaseNonEmpty(naming.upper, naming.lower, naming.unicodeName(c).value);
    }
  }

  lemma {:induction false} SpaceUppersKeeps(s: string, isUpper: char -> bool, x: char)
    requires x in s
    ensures x in SpaceUppers(s, isUpper)
  {
    if s[0] != x {
      SpaceUppersKeeps(s[1..], isUpper, x);
    }
  }

  /** Spacing does not turn a name with a visible character into a blank
      one. */
  lemma SpacedKeepsNonSpace(name: string, isUpper: char -> bool, k: nat)
    requires k < |name| && !IsWhitespace(name[k])
    ensures !AllWhitespace(CamelSpaced(name, isUpper))
  {
    var spaced := CamelSpaced(name, isUpper);
    if k == 0 {
      assert spaced[0] == name[0];
    } else {
      assert name[k] in name[1..] by { assert name[1..][k - 1] == name[k]; }
      SpaceUppersKeeps(name[1..], isUpper, name[k]);
      assert name[k] in spaced;
    }
  }

  /** The placeholder name reads back as the character's code. */
  lemma PlaceholderCode(c: char, naming: Naming)
    requires SpecialCharName(c).None? && naming.unicodeName(c).None? && naming.glyphName(c as nat).None?
    ensures CharName(c, naming)[..2] == "U+"
    ensures DigitsValue(CharName(c, naming)[2..], 16) == Some(c as int)
  {
    CodePointLabelValue(c);
  }

  /** `available_characters`, over the font's character set: every
      character that is neither whitespace nor an ASCII control, with its
      name. */
  function AvailableCharacters(fontChars: set<char>, naming: Naming): (r: map<char, string>)
    ensures forall c :: c in r <==> c in fontChars && !IsWhitespace(c) && !IsAsciiControl(c)
    ensures forall c :: c in r ==> r[c] == CharName(c, naming)
  {
    map c | c in fontChars && !IsWhitespace(c) && !IsAsciiControl(c) :: CharName(c, naming)
  }
}

=== FILE: levenshtein.dfy ===
/** Levenshtein edit distance, the measure `sz_edit_distance` computes:
    the least number of single-character insertions, deletions and
    substitutions that turn one string into the other. */
module Levenshtein {

  function Min3(a: nat, b: nat, c: nat): (m: nat)
    ensures m <= a && m <= b && m <= c
    ensures m == a || m == b || m == c
  {
    if a <= b && a <= c then a else if b <= c then b else c
  }

  function EditDistance(a: string, b: string): nat
    decreases |a| + |b|
  {
    if a == [] then |b|
    else if b == [] then |a|
    else Min3(EditDistance(a[1..], b) + 1,
              EditDistance(a, b[1..]) + 1,
              EditDistance(a[1..], b[1..]) + (if a[0] == b[0] then 0 else 1))
  }

  /** A string is at distance zero from itself. */
  lemma {:induction false} EditDistanceSelf(s: string)
    ensures EditDistance(s, s) == 0
  {
    if s != [] {
      EditDistanceSelf(s[1..]);
    }
  }

  /** Deleting one character costs at most one edit. */
  lemma {:induction false} EditDistanceDeletion(s: string, i: nat)
    requires i < |s|
    ensures EditDistance(s, s[..i] + s[i + 1..]) <= 1
    decreases i
  {
    var t := s[..i] + s[i + 1..];
    if i == 0 {
      assert t == s[1..];
      EditDistanceSelf(s[1..]);
    } else {
      assert t[0] == s[0];
      assert t[1..] == s[1..][..i - 1] + s[1..][i..];
      EditDistanceDeletion(s[1..], i - 1);
    }
  }

  /** The distance is at least the difference of the lengths. */
  lemma {:induction false} EditDistanceLengthGap(a: string, b: string)
    ensures EditDistance(a, b) >= |a| - |b|
    ensures EditDistance(a, b) >= |b| - |a|
    decreases |a| + |b|
  {
    if a != [] && b != [] {
      EditDistanceLengthGap(a[1..], b);
      EditDistanceLengthGap(a, b[1..]);
      EditDistanceLengthGap(a[1..], b[1..]);
    }
  }
}

=== FILE: numeral.dfy ===
/** Integer parsing (`u32::from_str_radix`, `str::parse::<u32>`) and the
    `{:04X}` hexadecimal formatting used for placeholder names. */
module Numeral {
  import opened Unicode
  import opened Text

  const U32Max: nat := 0xFFFF_FFFF

  /** `char::to_digit(36)`: the value of an ASCII digit or letter, and 36 for
      any other character (so it is a digit in no radix). */
  function DigitValue(c: char): (d: nat)
    ensures d <= 36
    ensures d < 10 <==> '0' <= c <= '9'
  {
    if '0' <= c <= '9' then c as int - '0' as int
    else if 'a' <= c <= 'z' then c as int - 'a' as int + 10
    else if 'A' <= c <= 'Z' then c as int - 'A' as int + 10
    else 36
  }

  /** `char::is_digit(radix)`. */
  predicate IsDigit(c: char, radix: nat) {
    DigitValue(c) < radix
  }

  /** `char::is_ascii_hexdigit`. */
  predicate IsAsciiHexDigit(c: char) {
    IsDigit(c, 16)
  }

  /** The value of `ds` read as digits in `radix`, most significant first;
      None when some character is not a digit. The empty string reads as 0. */
  function DigitsValue(ds: string, radix: nat): Option<nat>
  {
    if ds == [] then Some(0)
    else
      match DigitsValue(ds[..|ds| - 1], radix)
      case None => None
      case Some(v) =>
        if IsDigit(ds[|ds| - 1], radix) then Some(v * radix + DigitValue(ds[|ds| - 1])) else None
  }

  /** `u32::from_str_radix`: an optional leading '+' followed by at least one
      digit. The empty string, a lone sign, any non-digit (including a '-',
      since the type is unsigned) and values past `u32::MAX` are rejected. */
  function ParseU32(s: string, radix: nat): (r: Option<nat>)
    requires 2 <= radix <= 36
    ensures r.Some? ==> r.value <= U32Max
    ensures r.Some? ==> s != [] && s != "+"
    ensures r.Some? ==> forall i :: (if s[0] == '+' then 1 else 0) <= i < |s| ==> IsDigit(s[i], radix)
  {
    if s == [] || s == "+" || s == "-" then None
    else
      var digits := if s[0] == '+' then s[1..] else s;
      match DigitsValue(digits, radix)
      case None => None
      case Some(v) =>
        DigitsAreDigits(digits, radix);
        if v <= U32Max then Some(v) else None
  }

  /** A non-empty string of digits in `radix`. */
  predicate AllDigits(ds: string, radix: nat) {
    ds != [] && forall i :: 0 <= i < |ds| ==> IsDigit(ds[i], radix)
  }

  /** `s` without the one leading '+' that `from_str_radix` accepts. */
  function Unsigned(s: string): (r: string)
    ensures s == [] || s[0] != '+' ==> r == s
    ensures s != [] && s[0] == '+' ==> r == s[1..]
  {
    if s != [] && s[0] == '+' then s[1..] else s
  }

  /** Digits always have a value. */
  lemma {:induction false} DigitsHaveValue(ds: string, radix: nat)
    requires forall i :: 0 <= i < |ds| ==> IsDigit(ds[i], radix)
    ensures DigitsValue(ds, radix).Some?
  {
    if ds != [] {
      DigitsHaveValue(ds[..|ds| - 1], radix);
    }
  }

  /** An optionally signed string of digits parses to its value, unless the
      value does not fit in a `u32`. */
  lemma ParseUnsigned(s: string, radix: nat)
    requires 2 <= radix <= 36
    ensures AllDigits(Unsigned(s), radix) ==>
      DigitsValue(Unsigned(s), radix).Some? &&
      ParseU32(s, radix) == if DigitsValue(Unsigned(s), radix).value <= U32Max then DigitsValue(Unsigned(s), radix) else None
  {
    if AllDigits(Unsigned(s), radix) {
      DigitsHaveValue(Unsigned(s), radix);
      assert s != [] && s != "+";
      assert s != "-" by { assert !IsDigit('-', radix); }
    }
  }

  /** `k` hex digits are worth less than 16^k. */
  lemma {:induction false} HexValueBound(ds: string)
    ensures DigitsValue(ds, 16).Some? ==> DigitsValue(ds, 16).value < Pow16(|ds|)
  {
    if ds != [] && DigitsValue(ds, 16).Some? {
      var init := ds[..|ds| - 1];
      HexValueBound(init);
      var v := DigitsValue(init, 16).value;
      assert v <= Pow16(|init|) - 1;
      assert v * 16 <= Pow16(|init|) * 16 - 16;
    }
  }

  /** At most six hex digits parse to their value, which fits in 24 bits. */
  lemma ParseShortHex(ds: string)
    ensures AllDigits(ds, 16) && |ds| <= 6 ==>
      DigitsValue(ds, 16).Some? && DigitsValue(ds, 16).value < 0x100_0000 &&
      ParseU32(ds, 16) == DigitsValue(ds, 16)
  {
    if AllDigits(ds, 16) && |ds| <= 6 {
      HexValueBound(ds);
      Pow16Monotone(|ds|, 6);
      assert Pow16(6) == 0x100_0000;
      ParseUnsigned(ds, 16);
      assert Unsigned(ds) == ds by { assert ds[0] != '+'; }
    }
  }

  lemma {:induction false} Pow16Monotone(j: nat, k: nat)
    requires j <= k
    ensures Pow16(j) <= Pow16(k)
    decreases k
  {
    if j < k {
      Pow16Monotone(j, k - 1);
    }
  }

  /** A string of digits that starts with a digit parses to its value. */
  lemma ParseDigits(ds: string, radix: nat)
    requires 2 <= radix <= 36
    requires ds != [] && IsDigit(ds[0], radix)
    requires DigitsValue(ds, radix).Some? && DigitsValue(ds, radix).value <= U32Max
    ensures ParseU32(ds, radix) == DigitsValue(ds, radix)
  {
    assert ds != "+" && ds != "-" && ds[0] != '+';
  }

  lemma {:induction false} DigitsAreDigits(ds: string, radix: nat)
    ensures DigitsValue(ds, radix).Some? ==> forall i :: 0 <= i < |ds| ==> IsDigit(ds[i], radix)
  {
    if ds != [] {
      DigitsAreDigits(ds[..|ds| - 1], radix);
      if DigitsValue(ds, radix).Some? {
        forall i | 0 <= i < |ds| ensures IsDigit(ds[i], radix) {
          if i < |ds| - 1 {
            assert ds[i] == ds[..|ds| - 1][i];
          }
        }
      }
    }
  }

  /** Two digit strings whose characters have the same digit values read as
      the same number (so, e.g., upper- and lower-case hex agree). */
  lemma {:induction false} DigitsValueSameDigits(a: string, b: string, radix: nat)
    requires |a| == |b|
    requires forall i :: 0 <= i < |a| ==> DigitValue(a[i]) == DigitValue(b[i])
    ensures DigitsValue(a, radix) == DigitsValue(b, radix)
  {
    if a != [] {
      DigitsValueSameDigits(a[..|a| - 1], b[..|b| - 1], radix);
    }
  }

  function Zeros(k: nat): (z: string)
    ensures |z| == k && forall i :: 0 <= i < k ==> z[i] == '0'
  {
    if k == 0 then [] else ['0'] + Zeros(k - 1)
  }

  /** A string of zeros reads as 0. */
  lemma {:induction false} ZerosValue(k: nat, radix: nat)
    requires radix >= 2
    ensures DigitsValue(Zeros(k), radix) == Some(0)
  {
    if k > 0 {
      var z := Zeros(k);
      assert z[..k - 1] == Zeros(k - 1);
      ZerosValue(k - 1, radix);
      assert DigitValue(z[k - 1]) == 0;
    }
  }

  /** Leading zeros do not change the value. */
  lemma {:induction false} DigitsValueLeadingZeros(k: nat, ds: string, radix: nat)
    requires radix >= 2
    ensures DigitsValue(Zeros(k) + ds, radix) == DigitsValue(ds, radix)
    decreases |ds|
  {
    if ds == [] {
      assert Zeros(k) + ds == Zeros(k);
      ZerosValue(k, radix);
    } else {
      var s := Zeros(k) + ds;
      assert s[..|s| - 1] == Zeros(k) + ds[..|ds| - 1];
      assert s[|s| - 1] == ds[|ds| - 1];
      DigitsValueLeadingZeros(k, ds[..|ds| - 1], radix);
    }
  }

  /** Lower-casing a letter keeps its digit value. */
  lemma DigitValueAsciiLower(c: char)
    ensures DigitValue(AsciiLower(c)) == DigitValue(c)
  {
  }

  /** An upper-case hexadecimal digit. */
  function HexDigitUpper(d: nat): (c: char)
    requires d < 16
    ensures DigitValue(c) == d && c as int < 0x80 && !IsWhitespace(c)
  {
    if d < 10 then ('0' as int + d) as char else ('A' as int + d - 10) as char
  }

  /** `{:X}`: the upper-case hexadecimal numeral of `n`, without leading zeros. */
  function UpperHex(n: nat): (s: string)
    ensures s != []
    ensures forall i :: 0 <= i < |s| ==> IsAsciiHexDigit(s[i]) && s[i] as int < 0x80 && !IsWhitespace(s[i])
    decreases n
  {
    if n < 16 then [HexDigitUpper(n)] else UpperHex(n / 16) + [HexDigitUpper(n % 16)]
  }

  /** `{:04X}`: the upper-case hexadecimal numeral of `n`, zero-padded on the
      left to at least four digits. */
  function UpperHex4(n: nat): (s: string)
    ensures |s| >= 4
    ensures forall i :: 0 <= i < |s| ==> IsAsciiHexDigit(s[i]) && s[i] as int < 0x80 && !IsWhitespace(s[i])
  {
    var h := UpperHex(n);
    if |h| < 4 then Zeros(4 - |h|) + h else h
  }

  /** The numeral reads back as the number it was made from. */
  lemma {:induction false} UpperHexValue(n: nat)
    ensures DigitsValue(UpperHex(n), 16) == Some(n)
    decreases n
  {
    if n < 16 {
      assert UpperHex(n)[..0] == [];
    } else {
      var s := UpperHex(n);
      assert s[..|s| - 1] == UpperHex(n / 16);
      UpperHexValue(n / 16);
    }
  }

  lemma UpperHex4Value(n: nat)
    ensures DigitsValue(UpperHex4(n), 16) == Some(n)
  {
    var h := UpperHex(n);
    UpperHexValue(n);
    if |h| < 4 {
      DigitsValueLeadingZeros(4 - |h|, h, 16);
    }
  }

  /** Numbers below 0x10000 take at most four hex digits, so `{:04X}` of a
      scalar value is at most six digits long. */
  lemma {:induction false} UpperHexLength(n: nat, k: nat)
    requires n < Pow16(k) && k >= 1
    ensures |UpperHex(n)| <= k
    decreases k
  {
    if n >= 16 {
      UpperHexLength(n / 16, k - 1);
    }
  }

  function Pow16(k: nat): nat {
    if k == 0 then 1 else 16 * Pow16(k - 1)
  }

  lemma UpperHex4Length(n: nat)
    requires n <= 0x10FFFF
    ensures 4 <= |UpperHex4(n)| <= 6
  {
    assert Pow16(6) == 0x100_0000;
    UpperHexLength(n, 6);
  }

  /** `format!("U+{:04X}", code)`: the label of a code point, as in "U+00E9". */
  function CodePointLabel(c: char): (s: string)
    ensures |s| >= 6 && s[0] == 'U' && s[1] == '+'
    ensures forall i :: 2 <= i < |s| ==> IsAsciiHexDigit(s[i])
    ensures forall i :: 0 <= i < |s| ==> s[i] as int < 0x80 && !IsWhitespace(s[i])
  {
    "U+" + UpperHex4(c as int)
  }

  /** The digits of a label read back as the code point. */
  lemma CodePointLabelValue(c: char)
    ensures DigitsValue(CodePointLabel(c)[2..], 16) == Some(c as int)
    ensures |CodePointLabel(c)| <= 8
  {
    assert CodePointLabel(c)[2..] == UpperHex4(c as int);
    UpperHex4Value(c as int);
    UpperHex4Length(c as int);
  }
}

=== FILE: search.dfy ===
/** The search engine (`SearchParams`, `SearchEngine`): special query forms
    (a single character, a code point in hex or decimal), the category
    filter, fuzzy word matching and the final substring ("skeleton") filter.
    The cache of displayable characters maps each character to its name. */
module Search {
  import opened Unicode
  import opened Text
  import opened Numeral
  import opened Levenshtein
  import Categories

  type Cache = map<char, string>

  /** The services of other crates the engine calls: `str::to_lowercase`'s
      per-character mapping, `unicode_blocks::find_unicode_block`, egui's
      hash of a category name, and `finl_unicode`'s property tests. */
  datatype Env = Env(
    lower: char -> string,
    findBlock: char -> Option<UnicodeBlock>,
    idOf: string -> nat,
    matches: Categories.PropertyMatcher)

  datatype SearchParams = SearchParams(
    text: string,
    splitText: seq<string>,
    splitTextLower: seq<string>,
    searchOnlyCategories: bool,
    searchName: bool,
    caseSensitive: bool)

  /** `a` keeps some of `b`'s entries, unchanged. */
  predicate SubMap(a: Cache, b: Cache) {
    forall c :: c in a ==> c in b && a[c] == b[c]
  }

  /** `SearchParams::new`: the query's words, and their lower-cased forms
      when the search ignores case. */
  function NewSearchParams(text: string, searchOnlyCategories: bool, searchName: bool, caseSensitive: bool,
                           lower: char -> string): (p: SearchParams)
    ensures p.text == text && p.searchOnlyCategories == searchOnlyCategories
    ensures p.searchName == searchName && p.caseSensitive == caseSensitive
    ensures p.splitText == SplitWhitespace(text)
    ensures AllWords(p.splitText)
    ensures p.splitText == [] <==> AllWhitespace(text)
    ensures caseSensitive ==> p.splitTextLower == []
    ensures !caseSensitive ==> p.splitTextLower == MapWords(lower, p.splitText)
    ensures !caseSensitive ==> |p.splitTextLower| == |p.splitText|
  {
    SplitBlank(text);
    var words := SplitWhitespace(text);
    SearchParams(text, words, if caseSensitive then [] else MapWords(lower, words),
                 searchOnlyCategories, searchName, caseSensitive)
  }

  /** Lower-casing the words one by one gives the words of the lower-cased
      query. */
  lemma LowerTermsAreLoweredWords(text: string, only: bool, name: bool, lower: char -> string)
    requires CaseMapOk(lower)
    ensures NewSearchParams(text, only, name, false, lower).splitTextLower == SplitWhitespace(FlatMap(lower, text))
  {
    SplitFlatMap(lower, text);
  }

  // ---------------------------------------------------------------------
  // Special patterns

  /** The one-entry result for `c`, when `c` is displayable. */
  function SingleResult(cache: Cache, c: char): (r: Option<Cache>)
    ensures r.Some? <==> c in cache
    ensures r.Some? ==> SubMap(r.value, cache) && c in r.value && |r.value| == 1
  {
    if c in cache then Some(map[c := cache[c]]) else None
  }

  /** The displayable characters of block `b`. */
  function BlockResults(cache: Cache, b: UnicodeBlock): (r: Cache)
    ensures SubMap(r, cache)
    ensures forall c :: c in r <==> c in cache && BlockContains(b, c)
  {
    map c | c in cache && BlockContains(b, c) :: cache[c]
  }

  /** The shapes of cleaned text `parse_hex_code` accepts. */
  predicate HexShaped(cleaned: string) {
    HasPrefix(cleaned, "u+") || HasPrefix(cleaned, "0x") ||
    (Utf8Length(cleaned) <= 6 && forall i :: 0 <= i < |cleaned| ==> IsAsciiHexDigit(cleaned[i]))
  }

  /** `r` is what `char::from_u32` makes of the code `v`: the character with
      that code when `v` is a scalar value, and nothing otherwise. */
  predicate NamesCode(r: Option<char>, v: Option<nat>) {
    v.Some? && (r.Some? <==> IsScalar(v.value)) && (r.Some? ==> r.value as int == v.value)
  }

  /** `parse_hex_code`: after trimming and lower-casing, "u+XXXX", "0xXXXX"
      or one to six bare hex digits, naming a scalar value; blank text and
      any other shape give nothing. `PrefixedHexCode` and `BareHexCode`
      state the value found. */
  function ParseHexCode(text: string, lower: char -> string): (r: Option<char>)
    ensures r.Some? ==> HexShaped(FlatMap(lower, Trim(text)))
    ensures FlatMap(lower, Trim(text)) == [] ==> r.None?
  {
    var cleaned := FlatMap(lower, Trim(text));
    if HasPrefix(cleaned, "u+") && ParseU32(cleaned[2..], 16).Some? then
      FromU32(ParseU32(cleaned[2..], 16).value)
    else if HasPrefix(cleaned, "0x") && ParseU32(cleaned[2..], 16).Some? then
      FromU32(ParseU32(cleaned[2..], 16).value)
    else if (forall i :: 0 <= i < |cleaned| ==> IsAsciiHexDigit(cleaned[i])) && Utf8Length(cleaned) <= 6
            && ParseU32(cleaned, 16).Some? then
      FromU32(ParseU32(cleaned, 16).value)
    else None
  }

  /** "u+" or "0x" followed by hex digits (after at most one '+', which
      `from_str_radix` accepts) names the character with that code: nothing
      for a surrogate, a value past 0x10FFFF or a code past `u32::MAX`. */
  lemma PrefixedHexCode(text: string, lower: char -> string, cleaned: string)
    requires cleaned == FlatMap(lower, Trim(text))
    requires HasPrefix(cleaned, "u+") || HasPrefix(cleaned, "0x")
    requires AllDigits(Unsigned(cleaned[2..]), 16)
    ensures NamesCode(ParseHexCode(text, lower), DigitsValue(Unsigned(cleaned[2..]), 16))
  {
    ParseUnsigned(cleaned[2..], 16);
    assert !IsAsciiHexDigit(cleaned[1]);
  }

  /** "u+" or "0x" followed by anything but hex digits (after at most one
      '+') names nothing: both prefixed parses fail, and 'u' and 'x' are no
      hex digits, so the bare form fails too. */
  lemma UnparsablePrefixedHexCode(text: string, lower: char -> string, cleaned: string)
    requires cleaned == FlatMap(lower, Trim(text))
    requires HasPrefix(cleaned, "u+") || HasPrefix(cleaned, "0x")
    requires !AllDigits(Unsigned(cleaned[2..]), 16)
    ensures ParseHexCode(text, lower).None?
  {
    assert !IsAsciiHexDigit(cleaned[1]);
  }

  /** One to six bare hex digits name the character with that code, or
      nothing when the code is no scalar value. */
  lemma BareHexCode(text: string, lower: char -> string, cleaned: string)
    requires cleaned == FlatMap(lower, Trim(text))
    requires AllDigits(cleaned, 16) && Utf8Length(cleaned) <= 6
    ensures NamesCode(ParseHexCode(text, lower), DigitsValue(cleaned, 16))
  {
    ParseShortHex(cleaned);
    assert !HasPrefix(cleaned, "u+") && !HasPrefix(cleaned, "0x") by {
      assert IsAsciiHexDigit(cleaned[0]);
      if |cleaned| >= 2 { assert IsAsciiHexDigit(cleaned[1]); }
    }
  }

  /** The single-character rule: the character itself when it is displayable,
      otherwise every displayable character of its Unicode block, if any. */
  function SingleCharPattern(c: char, cache: Cache, findBlock: char -> Option<UnicodeBlock>): (r: Option<Cache>)
    ensures r.Some? ==> SubMap(r.value, cache) && r.value != map[]
    ensures c in cache ==> r == SingleResult(cache, c)
  {
    if c in cache then SingleResult(cache, c)
    else match findBlock(c)
      case None => None
      case Some(b) =>
        var results := BlockResults(cache, b);
        if results != map[] then Some(results) else None
  }

  /** `search_special_patterns`: the single-character rule, then a hex code,
      then a decimal code; each code only when its character is displayable. */
  function SearchSpecialPatterns(text: string, cache: Cache, env: Env): (r: Option<Cache>)
    ensures r.Some? ==> SubMap(r.value, cache) && r.value != map[]
    ensures r.Some? && |text| != 1 ==> |r.value| == 1
  {
    var single := if |text| == 1 then SingleCharPattern(text[0], cache, env.findBlock) else None;
    if single.Some? then single
    else
      var hex := ParseHexCode(text, env.lower);
      if hex.Some? && hex.value in cache then SingleResult(cache, hex.value)
      else match ParseU32(text, 10)
        case None => None
        case Some(code) =>
          match FromU32(code)
          case None => None
          case Some(c) => SingleResult(cache, c)
  }

  // ---------------------------------------------------------------------
  // Category filter

  /** `categories.iter().find(|cat| cat.id() == selected_id)`, as an index. */
  function FindCategory(categories: seq<Categories.Category>, id: nat, idOf: string -> nat): (r: Option<nat>)
    ensures r.Some? ==> r.value < |categories| && Categories.Id(categories[r.value], idOf) == id
    ensures r.Some? ==> forall j :: 0 <= j < r.value ==> Categories.Id(categories[j], idOf) != id
    ensures r.None? ==> forall j :: 0 <= j < |categories| ==> Categories.Id(categories[j], idOf) != id
  {
    if categories == [] then None
    else if Categories.Id(categories[0], idOf) == id then Some(0)
    else match FindCategory(categories[1..], id, idOf)
      case None => None
      case Some(i) => Some(i + 1)
  }

  /** A category is found again from its own id when no two categories share
      an id, as with distinct names and a hash that tells them apart. */
  lemma SelectedCategoryIsFound(categories: seq<Categories.Category>, k: nat, idOf: string -> nat)
    requires k < |categories|
    requires forall i, j :: 0 <= i < j < |categories| ==> Categories.Id(categories[i], idOf) != Categories.Id(categories[j], idOf)
    ensures FindCategory(categories, Categories.Id(categories[k], idOf), idOf) == Some(k)
  {
    var r := FindCategory(categories, Categories.Id(categories[k], idOf), idOf);
    assert r.Some?;
    assert !(r.value < k);
  }

  /** `filter_by_categories`: the entries the selected category contains, or
      the whole cache when no category has the selected id. */
  function FilterByCategories(cache: Cache, categories: seq<Categories.Category>, selectedId: nat, env: Env): (r: Cache)
    ensures SubMap(r, cache)
    ensures FindCategory(categories, selectedId, env.idOf).None? ==> r == cache
    ensures FindCategory(categories, selectedId, env.idOf).Some? ==>
      var category := categories[FindCategory(categories, selectedId, env.idOf).value];
      forall c :: c in r <==> c in cache && Categories.Contains(category.unicodeCategory, c, env.matches)
  {
    match FindCategory(categories, selectedId, env.idOf)
    case None => cache
    case Some(i) =>
      map c | c in cache && Categories.Contains(categories[i].unicodeCategory, c, env.matches) :: cache[c]
  }

  // ---------------------------------------------------------------------
  // Fuzzy search

  const MaxEditDistance: nat := 2

  /** A word of the name matches a term: exactly when either is shorter than
      three bytes, otherwise within two edits. */
  predicate WordMatches(word: string, term: string) {
    if Utf8Length(word) < 3 || Utf8Length(term) < 3 then word == term
    else EditDistance(word, term) <= MaxEditDistance
  }

  /** A term matches a name: as a substring, or fuzzily against one word. */
  predicate TermMatches(name: string, term: string) {
    var words := SplitWhitespace(name);
    Contains(name, term) || exists k | 0 <= k < |words| :: WordMatches(words[k], term)
  }

  /** The fuzzy test of one entry: every term matches the (lower-cased) name. */
  predicate FuzzyKeeps(name: string, params: SearchParams, lower: char -> string) {
    var n := if params.caseSensitive then name else FlatMap(lower, name);
    var terms := if params.caseSensitive then params.splitText else params.splitTextLower;
    forall k | 0 <= k < |terms| :: TermMatches(n, terms[k])
  }

  /** `fuzzy_search`. */
  function FuzzySearch(cache: Cache, params: SearchParams, lower: char -> string): (r: Cache)
    ensures SubMap(r, cache)
    ensures forall c :: c in r <==> c in cache && FuzzyKeeps(cache[c], params, lower)
  {
    map c | c in cache && FuzzyKeeps(cache[c], params, lower) :: cache[c]
  }

  /** A term that misses one letter of a word of the name (both at least
      three bytes long) still matches. */
  lemma FuzzyToleratesDeletion(name: string, k: nat, i: nat)
    requires k < |SplitWhitespace(name)|
    requires i < |SplitWhitespace(name)[k]|
    requires var w := SplitWhitespace(name)[k];
      Utf8Length(w) >= 3 && Utf8Length(w[..i] + w[i + 1..]) >= 3
    ensures var w := SplitWhitespace(name)[k];
      TermMatches(name, w[..i] + w[i + 1..])
  {
    var w := SplitWhitespace(name)[k];
    EditDistanceDeletion(w, i);
    assert WordMatches(w, w[..i] + w[i + 1..]);
  }
  /** The same for a name of one word. */
  lemma SingleWordToleratesDeletion(w: string, i: nat)
    requires IsWord(w) && i < |w|
    requires Utf8Length(w) >= 3 && Utf8Length(w[..i] + w[i + 1..]) >= 3
    ensures TermMatches(w, w[..i] + w[i + 1..])
  {
    SplitJoin([w]);
    FuzzyToleratesDeletion(w, 0, i);
  }


  // ---------------------------------------------------------------------
  // Skeleton search

  /** The skeleton test: the character itself, or (when names are searched)
      its name, contains the whole query text; both lower-cased unless the
      search is case-sensitive. */
  predicate SkeletonKeeps(c: char, name: string, params: SearchParams, lower: char -> string) {
    var charMatches :=
      if params.caseSensitive then Contains([c], params.text)
      else Contains(FlatMap(lower, [c]), FlatMap(lower, params.text));
    var nameMatches :=
      params.searchName &&
      if params.caseSensitive then Contains(name, params.text)
      else Contains(FlatMap(lower, name), FlatMap(lower, params.text));
    charMatches || nameMatches
  }

  /** `skeleton_search`: nothing is removed for a query without words. */
  function SkeletonSearch(cache: Cache, params: SearchParams, lower: char -> string): (r: Cache)
    ensures SubMap(r, cache)
    ensures params.splitText == [] ==> r == cache
    ensures params.splitText != [] ==> forall c :: c in r <==> c in cache && SkeletonKeeps(c, cache[c], params, lower)
  {
    if params.splitText == [] then cache
    else map c | c in cache && SkeletonKeeps(c, cache[c], params, lower) :: cache[c]
  }

  /** `apply_search_filters`: fuzzy search when names are searched and the
      query has words, then the skeleton filter. */
  function ApplySearchFilters(cache: Cache, params: SearchParams, lower: char -> string): (r: Cache)
    ensures SubMap(r, cache)
    ensures forall c :: c in r <==>
      (c in cache &&
       (params.searchName && params.splitText != [] ==> FuzzyKeeps(cache[c], params, lower)) &&
       (params.splitText != [] ==> SkeletonKeeps(c, cache[c], params, lower)))
  {
    var fuzzed := if params.searchName && params.splitText != [] then FuzzySearch(cache, params, lower) else cache;
    SkeletonSearch(fuzzed, params, lower)
  }

  /** The fuzzy pass only narrows: whatever survives both passes also
      passes the skeleton test on its own. */
  lemma FiltersWithinSkeleton(cache: Cache, params: SearchParams, lower: char -> string)
    ensures SubMap(ApplySearchFilters(cache, params, lower), SkeletonSearch(cache, params, lower))
  {
  }

  /** A query without words (empty or all whitespace) filters nothing. */
  lemma BlankQueryKeepsAll(cache: Cache, params: SearchParams, lower: char -> string)
    requires params.splitText == []
    ensures ApplySearchFilters(cache, params, lower) == cache
  {
  }

  /** A case-sensitive query of two or more characters that does not search
      names matches nothing: one character cannot contain it. */
  lemma LongQueryWithoutNamesFindsNothing(cache: Cache, params: SearchParams, lower: char -> string)
    requires params.caseSensitive && !params.searchName
    requires params.splitText != [] && |params.text| >= 2
    ensures ApplySearchFilters(cache, params, lower) == map[]
  {
    forall c | c in cache ensures !SkeletonKeeps(c, cache[c], params, lower) {
      ContainsTooLong([c], params.text);
    }
  }

  // ---------------------------------------------------------------------
  // The search

  /** `SearchEngine::search`. */
  function Search(params: SearchParams, fullCache: Cache, categories: seq<Categories.Category>,
                  selectedId: nat, env: Env): (r: Cache)
    ensures SubMap(r, fullCache)
    ensures params.text == [] ==> r == fullCache
  {
    if params.text == [] then fullCache
    else match SearchSpecialPatterns(params.text, fullCache, env)
      case Some(results) => results
      case None =>
        var base := if params.searchOnlyCategories then FilterByCategories(fullCache, categories, selectedId, env)
                    else fullCache;
        ApplySearchFilters(base, params, env.lower)
  }

  /** A one-character query that is displayable finds exactly itself,
      whatever the flags and the selected category. */
  lemma SingleCharFindsItself(params: SearchParams, cache: Cache, categories: seq<Categories.Category>,
                              selectedId: nat, env: Env)
    requires |params.text| == 1 && params.text[0] in cache
    ensures Search(params, cache, categories, selectedId, env) == map[params.text[0] := cache[params.text[0]]]
  {
  }

  /** A one-character query that is not displayable lists the displayable
      characters of its block, all of which lie in that block. */
  lemma SingleCharFindsItsBlock(params: SearchParams, cache: Cache, categories: seq<Categories.Category>,
                                selectedId: nat, env: Env, b: UnicodeBlock)
    requires BlockLookupOk(env.findBlock)
    requires |params.text| == 1 && params.text[0] !in cache
    requires env.findBlock(params.text[0]) == Some(b)
    requires BlockResults(cache, b) != map[]
    ensures Search(params, cache, categories, selectedId, env) == BlockResults(cache, b)
    ensures BlockContains(b, params.text[0])
  {
    assert FoundBlockContains(env.findBlock(params.text[0]), params.text[0]);
  }

  /** A query that names a displayable code point in hex finds exactly that
      character (unless it is a single displayable character itself). */
  lemma HexCodeFindsCharacter(params: SearchParams, cache: Cache, categories: seq<Categories.Category>,
                              selectedId: nat, env: Env, c: char)
    requires params.text != [] && (|params.text| != 1 || SingleCharPattern(params.text[0], cache, env.findBlock).None?)
    requires ParseHexCode(params.text, env.lower) == Some(c) && c in cache
    ensures Search(params, cache, categories, selectedId, env) == map[c := cache[c]]
  {
  }

  /** A decimal code is read only when the text is no displayable hex code,
      and then finds its character. */
  lemma DecimalCodeFindsCharacter(params: SearchParams, cache: Cache, categories: seq<Categories.Category>,
                                  selectedId: nat, env: Env, c: char)
    requires params.text != [] && (|params.text| != 1 || SingleCharPattern(params.text[0], cache, env.findBlock).None?)
    requires ParseHexCode(params.text, env.lower).None? || ParseHexCode(params.text, env.lower).value !in cache
    requires ParseU32(params.text, 10) == Some(c as nat) && c in cache
    ensures Search(params, cache, categories, selectedId, env) == map[c := cache[c]]
  {
    assert FromU32(c as nat) == Some(c);
  }

  /** The tag "U+XXXX" of any character parses back to that character. */
  lemma ParseCodePointLabel(c: char, lower: char -> string)
    requires LowersAscii(lower)
    ensures ParseHexCode(CodePointLabel(c), lower) == Some(c)
  {
    var cleaned := FlatMap(lower, Trim(CodePointLabel(c)));
    CleanedLabel(c, lower);
    ParseDigits(cleaned[2..], 16);
  }

  /** The cleaned tag is "u+" followed by hex digits worth the code. */
  lemma CleanedLabel(c: char, lower: char -> string)
    requires LowersAscii(lower)
    ensures var cleaned := FlatMap(lower, Trim(CodePointLabel(c)));
      HasPrefix(cleaned, "u+") && |cleaned| > 2 && IsDigit(cleaned[2], 16) &&
      DigitsValue(cleaned[2..], 16) == Some(c as int)
  {
    var hex := UpperHex4(c as int);
    TrimUnchanged(CodePointLabel(c));
    FlatMapAppend(lower, "U+", hex);
    LowerUPlus(lower);
    LoweredDigits(hex, lower, 16);
    UpperHex4Value(c as int);
    var cleaned := "u+" + FlatMap(lower, hex);
    assert cleaned[2..] == FlatMap(lower, hex);
    assert cleaned[2] == FlatMap(lower, hex)[0];
  }

  lemma LowerUPlus(lower: char -> string)
    requires LowersAscii(lower)
    ensures FlatMap(lower, "U+") == "u+"
  {
    FlatMapAsciiString(lower, "U+");
  }

  /** Lower-casing ASCII digits keeps their values. */
  lemma LoweredDigits(ds: string, lower: char -> string, radix: nat)
    requires LowersAscii(lower)
    requires forall i :: 0 <= i < |ds| ==> ds[i] as int < 0x80
    ensures |FlatMap(lower, ds)| == |ds|
    ensures forall i :: 0 <= i < |ds| ==> DigitValue(FlatMap(lower, ds)[i]) == DigitValue(ds[i])
    ensures DigitsValue(FlatMap(lower, ds), radix) == DigitsValue(ds, radix)
  {
    FlatMapAscii(lower, ds);
    forall i | 0 <= i < |ds| ensures DigitValue(FlatMap(lower, ds)[i]) == DigitValue(ds[i]) {
      DigitValueAsciiLower(ds[i]);
    }
    DigitsValueSameDigits(FlatMap(lower, ds), ds, radix);
  }

  /** Searching for a character's "U+XXXX" tag finds that character. */
  lemma SearchByLabel(c: char, only: bool, name: bool, cs: bool, cache: Cache,
                      categories: seq<Categories.Category>, selectedId: nat, env: Env)
    requires LowersAscii(env.lower) && c in cache
    ensures Search(NewSearchParams(CodePointLabel(c), only, name, cs, env.lower), cache, categories, selectedId, env)
            == map[c := cache[c]]
  {
    ParseCodePointLabel(c, env.lower);
  }

  /** "65" read as digits in any radix from 10 to 16. */
  lemma SixtyFive(radix: nat)
    requires 10 <= radix <= 16
    ensures DigitsValue("65", radix) == Some(6 * radix + 5)
  {
    assert "65"[..1] == "6";
    assert "6"[..0] == [];
    assert DigitValue('6') == 6 && DigitValue('5') == 5;
    assert DigitsValue("6", radix) == Some(6);
  }

  /** "65" is the hex code of 'e'. */
  lemma HexCodeSixtyFive(lower: char -> string)
    requires LowersAscii(lower)
    ensures ParseHexCode("65", lower) == Some('e')
  {
    TrimUnchanged("65");
    FlatMapAscii(lower, "65");
    assert FlatMap(lower, "65") == "65";
    SixtyFive(16);
    Utf8LengthAscii("65");
  }

  /** Digits are read as hex before decimal: "65" finds U+0065 'e', not
      U+0041 'A', when both are displayable. */
  lemma HexBeforeDecimal(only: bool, name: bool, cs: bool, cache: Cache,
                         categories: seq<Categories.Category>, selectedId: nat, env: Env)
    requires LowersAscii(env.lower) && 'e' in cache && 'A' in cache
    ensures Search(NewSearchParams("65", only, name, cs, env.lower), cache, categories, selectedId, env)
            == map['e' := cache['e']]
  {
    HexCodeSixtyFive(env.lower);
    HexCodeFindsCharacter(NewSearchParams("65", only, name, cs, env.lower), cache, categories, selectedId, env, 'e');
  }

  /** "0000065" read as a decimal number. */
  lemma DecimalSixtyFive()
    ensures ParseU32("0000065", 10) == Some(65)
  {
    assert Zeros(5) + "65" == "0000065";
    DigitsValueLeadingZeros(5, "65", 10);
    SixtyFive(10);
  }

  /** Seven digits are too long for bare hex, so they are read as decimal:
      "0000065" finds 'A'. */
  lemma DecimalCode(only: bool, name: bool, cs: bool, cache: Cache,
                    categories: seq<Categories.Category>, selectedId: nat, env: Env)
    requires LowersAscii(env.lower) && 'A' in cache
    ensures Search(NewSearchParams("0000065", only, name, cs, env.lower), cache, categories, selectedId, env)
            == map['A' := cache['A']]
  {
    DecimalSixtyFive();
    NotHexCode("0000065", env.lower);
    DecimalCodeFindsCharacter(NewSearchParams("0000065", only, name, cs, env.lower), cache, categories, selectedId, env, 'A');
  }

  /** A seven-digit number is not a hex code. */
  lemma NotHexCode(text: string, lower: char -> string)
    requires LowersAscii(lower)
    requires |text| == 7 && forall i :: 0 <= i < |text| ==> '0' <= text[i] <= '9'
    requires text[1] != 'x'
    ensures ParseHexCode(text, lower) == None
  {
    TrimUnchanged(text);
    FlatMapAscii(lower, text);
    assert FlatMap(lower, text) == text;
    assert !HasPrefix(text, "u+") && !HasPrefix(text, "0x");
  }

  /** With a category selected and no special pattern, every result belongs
      to the selected category. */
  lemma ResultsWithinSelectedCategory(params: SearchParams, cache: Cache, categories: seq<Categories.Category>,
                                      selectedId: nat, env: Env, i: nat)
    requires params.text != [] && SearchSpecialPatterns(params.text, cache, env).None?
    requires params.searchOnlyCategories
    requires FindCategory(categories, selectedId, env.idOf) == Some(i)
    ensures forall c :: c in Search(params, cache, categories, selectedId, env) ==>
      Categories.Contains(categories[i].unicodeCategory, c, env.matches)
  {
  }

  /** Without a special pattern the whole pipeline runs: the category
      filter when categories are searched, then the fuzzy and substring
      filters; when the query has words, every result passes the substring
      test. */
  lemma SearchWithoutSpecialPattern(params: SearchParams, cache: Cache, categories: seq<Categories.Category>,
                                    selectedId: nat, env: Env)
    requires params.text != [] && SearchSpecialPatterns(params.text, cache, env).None?
    ensures Search(params, cache, categories, selectedId, env) ==
      ApplySearchFilters(if params.searchOnlyCategories then FilterByCategories(cache, categories, selectedId, env) else cache,
                         params, env.lower)
    ensures params.splitText != [] ==> forall c :: c in Search(params, cache, categories, selectedId, env) ==>
      SkeletonKeeps(c, Search(params, cache, categories, selectedId, env)[c], params, env.lower)
  {
  }

  /** The query "hypen" has one word, and lower-casing keeps it. */
  lemma HypenQuery(lower: char -> string)
    requires LowersAscii(lower)
    ensures SplitWhitespace("hypen") == ["hypen"] && FlatMap(lower, "hypen") == "hypen"
  {
    SplitJoin(["hypen"]);
    FlatMapAsciiString(lower, "hypen");
  }

  /** The lower-cased form of "Hyphen" is "hyphen". */
  lemma HyphenName(lower: char -> string)
    requires LowersAscii(lower)
    ensures FlatMap(lower, "Hyphen") == "hyphen"
  {
    FlatMapAsciiString(lower, "Hyphen");
  }

  /** "hypen" matches the lower-cased name "Hyphen" only fuzzily. */
  lemma HyphenNameTypo(lower: char -> string)
    requires LowersAscii(lower)
    ensures TermMatches(FlatMap(lower, "Hyphen"), "hypen")
    ensures !Contains(FlatMap(lower, "Hyphen"), "hypen")
  {
    HyphenName(lower);
    HypenIsTypo();
  }

  /** The lower-cased HYPHEN character is shorter than the query. */
  lemma HyphenCharShort(lower: char -> string)
    requires lower('\U{2010}') == ['\U{2010}']
    ensures |FlatMap(lower, ['\U{2010}'])| < |"hypen"|
  {
    assert FlatMap(lower, ['\U{2010}']) == ['\U{2010}'];
  }

  /** "hypen" is one deletion away from the word "hyphen", so it matches
      fuzzily, but it is not a substring of "hyphen". */
  lemma HypenIsTypo()
    ensures TermMatches("hyphen", "hypen")
    ensures !Contains("hyphen", "hypen")
  {
    HypenIsDeletion();
    HypenNotSubstring();
  }

  lemma HypenNotSubstring()
    ensures !Contains("hyphen", "hypen")
  {
    assert "hyphen"[0..5] != "hypen" by { assert "hyphen"[0..5][3] == 'h'; }
    assert "hyphen"[1..6] != "hypen" by { assert "hyphen"[1..6][0] == 'y'; }
  }

  lemma HypenIsDeletion()
    ensures TermMatches("hyphen", "hypen")
  {
    assert "hyphen"[..3] + "hyphen"[4..] == "hypen";
    AsciiUtf8Length("hyphen");
    AsciiUtf8Length("hypen");
    SingleWordToleratesDeletion("hyphen", 3);
  }


  /** "hypen" is neither a hex nor a decimal code. */
  lemma HypenNotSpecial(cache: Cache, env: Env)
    requires LowersAscii(env.lower)
    ensures SearchSpecialPatterns("hypen", cache, env) == None
  {
    HypenNotHex(env.lower);
    HypenNotDecimal();
  }

  lemma HypenNotHex(lower: char -> string)
    requires LowersAscii(lower)
    ensures ParseHexCode("hypen", lower) == None
  {
    var text := "hypen";
    TrimUnchanged(text);
    FlatMapAsciiString(lower, text);
    assert !HasPrefix(text, "u+") && !HasPrefix(text, "0x") && !IsAsciiHexDigit(text[0]);
  }

  lemma HypenNotDecimal()
    ensures ParseU32("hypen", 10) == None
  {
    assert !IsDigit("hypen"[0], 10);
  }


  /** A fuzzy-only match is lost: when a one-word query matches a name
      fuzzily but is a substring of neither the name nor the character, the
      fuzzy pass keeps the entry and the search still returns nothing. */
  lemma FuzzyOnlyMatchIsDropped(env: Env, c: char, name: string, query: string)
    requires SplitWhitespace(query) == [query] && FlatMap(env.lower, query) == query
    requires TermMatches(FlatMap(env.lower, name), query)
    requires !Contains(FlatMap(env.lower, name), query)
    requires |FlatMap(env.lower, [c])| < |query|
    requires SearchSpecialPatterns(query, map[c := name], env) == None
    ensures var params := NewSearchParams(query, false, true, false, env.lower);
      FuzzySearch(map[c := name], params, env.lower) == map[c := name] &&
      Search(params, map[c := name], [], 0, env) == map[]
  {
    var params := NewSearchParams(query, false, true, false, env.lower);
    assert params.splitTextLower == [query];
    assert FuzzyKeeps(name, params, env.lower);
    ContainsTooLong(FlatMap(env.lower, [c]), FlatMap(env.lower, query));
    assert !SkeletonKeeps(c, name, params, env.lower);
  }

  /** The misspelt query "hypen" fuzzily matches the name "Hyphen" (one
      edit), yet the search drops it. */
  lemma MisspeltQueryIsDropped(env: Env)
    requires LowersAscii(env.lower) && env.lower('\U{2010}') == ['\U{2010}']
    ensures var params := NewSearchParams("hypen", false, true, false, env.lower);
      var cache := map['\U{2010}' := "Hyphen"];
      FuzzySearch(cache, params, env.lower) == cache &&
      Search(params, cache, [], 0, env) == map[]
  {
    HypenQuery(env.lower);
    HyphenNameTypo(env.lower);
    HyphenCharShort(env.lower);
    HypenNotSpecial(map['\U{2010}' := "Hyphen"], env);
    FuzzyOnlyMatchIsDropped(env, '\U{2010}', "Hyphen", "hypen");
  }
}

=== FILE: text.dfy ===
/** The `str` operations the engine is built from: substring search, trimming,
    `split_whitespace`, joining, and per-character case mapping. */
module Text {
  import opened Unicode

  /** `str::starts_with`. */
  predicate HasPrefix(s: string, prefix: string) {
    |prefix| <= |s| && s[..|prefix|] == prefix
  }

  /** `str::contains`: `needle` occurs somewhere in `hay` (the empty needle
      occurs everywhere). */
  predicate Contains(hay: string, needle: string) {
    exists i | 0 <= i <= |hay| - |needle| :: OccursAt(hay, needle, i)
  }

  predicate OccursAt(hay: string, needle: string, i: nat) {
    i + |needle| <= |hay| && hay[i..i + |needle|] == needle
  }

  lemma ContainsSelf(s: string)
    ensures Contains(s, s)
  {
    assert OccursAt(s, s, 0);
  }

  /** A one-character string contains only the empty string and itself. */
  lemma ContainsInSingleton(c: char, needle: string)
    ensures Contains([c], needle) <==> needle == [] || needle == [c]
  {
    if needle == [] {
      assert OccursAt([c], needle, 0);
    } else if needle == [c] {
      assert OccursAt([c], needle, 0);
    }
  }

  /** A needle longer than the haystack never occurs in it. */
  lemma ContainsTooLong(hay: string, needle: string)
    requires |needle| > |hay|
    ensures !Contains(hay, needle)
  {
  }

  /** `str::trim_start` (White_Space only). */
  function TrimStart(s: string): (r: string)
    ensures |r| <= |s|
    ensures r == [] || !IsWhitespace(r[0])
  {
    if s != [] && IsWhitespace(s[0]) then TrimStart(s[1..]) else s
  }

  /** `trim_start` drops exactly a whitespace prefix. */
  lemma {:induction false} TrimStartDropsWhitespace(s: string)
    ensures TrimStart(s) == s[|s| - |TrimStart(s)|..]
    ensures AllWhitespace(s[..|s| - |TrimStart(s)|])
  {
    if s != [] && IsWhitespace(s[0]) {
      TrimStartDropsWhitespace(s[1..]);
    }
  }

  /** `str::trim_end` (White_Space only). */
  function TrimEnd(s: string): (r: string)
    ensures |r| <= |s|
    ensures r == [] || !IsWhitespace(r[|r| - 1])
  {
    if s != [] && IsWhitespace(s[|s| - 1]) then TrimEnd(s[..|s| - 1]) else s
  }

  /** `trim_end` drops exactly a whitespace suffix. */
  lemma {:induction false} TrimEndDropsWhitespace(s: string)
    ensures TrimEnd(s) == s[..|TrimEnd(s)|]
    ensures AllWhitespace(s[|TrimEnd(s)|..])
  {
    if s != [] && IsWhitespace(s[|s| - 1]) {
      TrimEndDropsWhitespace(s[..|s| - 1]);
      assert s[..|s| - 1][|TrimEnd(s)|..] + [s[|s| - 1]] == s[|TrimEnd(s)|..];
    }
  }

  /** `str::trim`. */
  function Trim(s: string): string {
    TrimEnd(TrimStart(s))
  }

  /** A string that neither starts nor ends with whitespace is its own trim. */
  lemma TrimUnchanged(s: string)
    requires s == [] || (!IsWhitespace(s[0]) && !IsWhitespace(s[|s| - 1]))
    ensures Trim(s) == s
  {
  }

  /** A word of `split_whitespace`: non-empty and free of whitespace. */
  predicate IsWord(w: string) {
    w != [] && NoWhitespace(w)
  }

  predicate NoWhitespace(s: string) {
    forall i :: 0 <= i < |s| ==> !IsWhitespace(s[i])
  }

  predicate AllWhitespace(s: string) {
    forall i :: 0 <= i < |s| ==> IsWhitespace(s[i])
  }

  /** The longest prefix of `s` that holds no whitespace. */
  function WordPrefix(s: string): (w: string)
    ensures |w| <= |s| && NoWhitespace(w)
    ensures |w| == |s| || IsWhitespace(s[|w|])
  {
    if s == [] || IsWhitespace(s[0]) then [] else [s[0]] + WordPrefix(s[1..])
  }

  lemma {:induction false} WordPrefixIsPrefix(s: string)
    ensures WordPrefix(s) == s[..|WordPrefix(s)|]
  {
    if s != [] && !IsWhitespace(s[0]) {
      WordPrefixIsPrefix(s[1..]);
    }
  }

  /** `str::split_whitespace`: the maximal whitespace-free runs, in order. */
  function SplitWhitespace(s: string): (words: seq<string>)
    ensures forall i :: 0 <= i < |words| ==> IsWord(words[i])
    decreases |s|
  {
    var t := TrimStart(s);
    if t == [] then []
    else
      var w := WordPrefix(t);
      assert |w| > 0 by { assert !IsWhitespace(t[0]); }
      [w] + SplitWhitespace(t[|w|..])
  }

  /** A string has no words exactly when it is all whitespace. */
  lemma SplitBlank(s: string)
    ensures SplitWhitespace(s) == [] <==> AllWhitespace(s)
  {
    var t := TrimStart(s);
    TrimStartDropsWhitespace(s);
    if t == [] {
      assert s[..|s|] == s;
    } else {
      assert s[|s| - |t|] == t[0];
    }
  }

  /** `[String]::join(sep)`. */
  function Join(words: seq<string>, sep: string): string {
    if words == [] then []
    else if |words| == 1 then words[0]
    else words[0] + sep + Join(words[1..], sep)
  }

  predicate AllWords(words: seq<string>) {
    forall i :: 0 <= i < |words| ==> IsWord(words[i])
  }

  lemma {:induction false} WordPrefixOfWord(w: string, rest: string)
    requires NoWhitespace(w)
    requires rest == [] || IsWhitespace(rest[0])
    ensures WordPrefix(w + rest) == w
    decreases |w|
  {
    if w != [] {
      assert (w + rest)[1..] == w[1..] + rest;
      WordPrefixOfWord(w[1..], rest);
    }
  }

  /** Leading whitespace does not change the words. */
  lemma SplitAfterWhitespace(c: char, s: string)
    requires IsWhitespace(c)
    ensures SplitWhitespace([c] + s) == SplitWhitespace(s)
  {
    assert ([c] + s)[1..] == s;
  }

  /** A word followed by whitespace (or nothing) is the first word. */
  lemma SplitWordThenRest(w: string, rest: string)
    requires IsWord(w)
    requires rest == [] || IsWhitespace(rest[0])
    ensures SplitWhitespace(w + rest) == [w] + SplitWhitespace(rest)
  {
    WordPrefixOfWord(w, rest);
    assert (w + rest)[|w|..] == rest;
  }

  /** Round trip: splitting words joined by single spaces gives the words back. */
  lemma {:induction false} SplitJoin(words: seq<string>)
    requires AllWords(words)
    ensures SplitWhitespace(Join(words, " ")) == words
  {
    if words == [] {
    } else if |words| == 1 {
      SplitWordThenRest(words[0], []);
      assert words[0] + [] == words[0];
    } else {
      var rest := Join(words[1..], " ");
      assert Join(words, " ") == words[0] + ([' '] + rest);
      SplitWordThenRest(words[0], [' '] + rest);
      SplitAfterWhitespace(' ', rest);
      SplitJoin(words[1..]);
    }
  }

  /** Two words joined by a space split back into those two words. */
  lemma SplitTwoWords(a: string, b: string)
    requires IsWord(a) && IsWord(b)
    ensures SplitWhitespace(a + " " + b) == [a, b]
  {
    assert Join([a, b], " ") == a + " " + b;
    SplitJoin([a, b]);
  }

  /** Applies a per-character mapping to each character and concatenates the
      images (the shape of `str::to_lowercase` and `str::to_uppercase`). */
  function FlatMap(f: char -> string, s: string): (r: string)
  {
    if s == [] then [] else f(s[0]) + FlatMap(f, s[1..])
  }

  lemma {:induction false} FlatMapAppend(f: char -> string, a: string, b: string)
    ensures FlatMap(f, a + b) == FlatMap(f, a) + FlatMap(f, b)
  {
    if a == [] {
      assert a + b == b;
    } else {
      assert (a + b)[0] == a[0];
      assert (a + b)[1..] == a[1..] + b;
      FlatMapAppend(f, a[1..], b);
      calc {
        FlatMap(f, a + b);
        f(a[0]) + FlatMap(f, a[1..] + b);
        f(a[0]) + (FlatMap(f, a[1..]) + FlatMap(f, b));
        (f(a[0]) + FlatMap(f, a[1..])) + FlatMap(f, b);
      }
    }
  }

  /** What the standard library's case mappings guarantee and the model
      relies on: every character maps to at least one character, whitespace
      maps to itself, and nothing else maps to whitespace. */
  ghost predicate CaseMapOk(f: char -> string) {
    forall c :: CaseImageOk(c, f(c))
  }

  predicate CaseImageOk(c: char, image: string) {
    image != [] &&
    (IsWhitespace(c) ==> image == [c]) &&
    (!IsWhitespace(c) ==> NoWhitespace(image))
  }

  lemma {:induction false} FlatMapLength(f: char -> string, s: string)
    requires CaseMapOk(f)
    ensures |FlatMap(f, s)| >= |s|
  {
    if s != [] {
      assert CaseImageOk(s[0], f(s[0]));
      FlatMapLength(f, s[1..]);
    }
  }

  lemma {:induction false} FlatMapWord(f: char -> string, w: string)
    requires CaseMapOk(f)
    requires NoWhitespace(w)
    ensures NoWhitespace(FlatMap(f, w))
    ensures w != [] ==> FlatMap(f, w) != []
  {
    if w != [] {
      assert CaseImageOk(w[0], f(w[0]));
      FlatMapWord(f, w[1..]);
      var r := FlatMap(f, w);
      assert r == f(w[0]) + FlatMap(f, w[1..]);
      forall i | 0 <= i < |r| ensures !IsWhitespace(r[i]) {
        if i >= |f(w[0])| {
          assert r[i] == FlatMap(f, w[1..])[i - |f(w[0])|];
        }
      }
    }
  }

  /** Each word mapped through `f`. */
  function MapWords(f: char -> string, words: seq<string>): (r: seq<string>)
    ensures |r| == |words|
    ensures forall i :: 0 <= i < |words| ==> r[i] == FlatMap(f, words[i])
  {
    if words == [] then [] else [FlatMap(f, words[0])] + MapWords(f, words[1..])
  }

  /** Case mapping commutes with `split_whitespace`: the words of the mapped
      string are the mapped words. */
  lemma {:induction false} SplitFlatMap(f: char -> string, s: string)
    requires CaseMapOk(f)
    ensures SplitWhitespace(FlatMap(f, s)) == MapWords(f, SplitWhitespace(s))
    decreases |s|
  {
    if s == [] {
    } else if IsWhitespace(s[0]) {
      assert CaseImageOk(s[0], f(s[0]));
      assert s == [s[0]] + s[1..];
      assert FlatMap(f, s) == [s[0]] + FlatMap(f, s[1..]);
      SplitAfterWhitespace(s[0], FlatMap(f, s[1..]));
      SplitAfterWhitespace(s[0], s[1..]);
      SplitFlatMap(f, s[1..]);
    } else {
      var w := WordPrefix(s);
      var rest := s[|w|..];
      WordPrefixIsPrefix(s);
      assert s == w + rest;
      SplitWordThenRest(w, rest);
      FlatMapAppend(f, w, rest);
      FlatMapWord(f, w);
      if rest != [] {
        assert CaseImageOk(rest[0], f(rest[0]));
        assert FlatMap(f, rest) == f(rest[0]) + FlatMap(f, rest[1..]);
      }
      SplitWordThenRest(FlatMap(f, w), FlatMap(f, rest));
      SplitFlatMap(f, rest);
    }
  }

  /** On ASCII text a case map that lowers ASCII is ASCII lower-casing. */
  lemma {:induction false} FlatMapAscii(f: char -> string, s: string)
    requires LowersAscii(f)
    requires forall i :: 0 <= i < |s| ==> s[i] as int < 0x80
    ensures |FlatMap(f, s)| == |s|
    ensures forall i :: 0 <= i < |s| ==> FlatMap(f, s)[i] == AsciiLower(s[i])
  {
    if s != [] {
      assert f(s[0]) == [AsciiLower(s[0])];
      FlatMapAscii(f, s[1..]);
    }
  }

  /** The same, stated with the recursive definitions, which evaluate on
      literal strings. */
  lemma {:induction false} FlatMapAsciiString(f: char -> string, s: string)
    requires LowersAscii(f) && IsAsciiString(s)
    ensures FlatMap(f, s) == AsciiLowerString(s)
  {
    if s != [] {
      FlatMapAsciiString(f, s[1..]);
    }
  }

  /** The same, as an implication that holds of any map and text. */
  lemma LowersAsciiText(f: char -> string, s: string)
    ensures LowersAscii(f) && IsAsciiString(s) ==> FlatMap(f, s) == AsciiLowerString(s)
  {
    if LowersAscii(f) && IsAsciiString(s) {
      FlatMapAsciiString(f, s);
    }
  }

  /** ASCII lower-casing of one character. */
  function AsciiLower(c: char): char {
    if 'A' <= c <= 'Z' then (c as int + 32) as char else c
  }

  /** ASCII upper-casing of one character. */
  function AsciiUpper(c: char): char {
    if 'a' <= c <= 'z' then (c as int - 32) as char else c
  }

  function AsciiLowerString(s: string): (r: string)
    ensures |r| == |s|
  {
    if s == [] then [] else [AsciiLower(s[0])] + AsciiLowerString(s[1..])
  }

  function AsciiUpperString(s: string): (r: string)
    ensures |r| == |s|
  {
    if s == [] then [] else [AsciiUpper(s[0])] + AsciiUpperString(s[1..])
  }

  lemma NoWhitespaceConcat(a: string, b: string)
    requires NoWhitespace(a) && NoWhitespace(b)
    ensures NoWhitespace(a + b)
  {
    forall i | 0 <= i < |a + b| ensures !IsWhitespace((a + b)[i]) {
      if i >= |a| {
        assert (a + b)[i] == b[i - |a|];
      }
    }
  }

  /** A case map that agrees with ASCII lower-casing on ASCII characters, as
      `str::to_lowercase` does. */
  ghost predicate LowersAscii(f: char -> string) {
    forall c :: c as int < 0x80 ==> f(c) == [AsciiLower(c)]
  }
}

=== FILE: unicode.dfy ===
/** Unicode scalar values and the character classes of Rust's `char` that the
    search engine relies on. Dafny's `char` is exactly a Unicode scalar value,
    so a Rust `char` is modelled by a Dafny `char`. */
module Unicode {

  datatype Option<+T> = None | Some(value: T)

  /** Definition D76 (section 3.9 of The Unicode Standard): a scalar value is a
      code point in 0..=0x10FFFF that is not a surrogate. */
  predicate IsScalar(n: int) {
    0 <= n <= 0x10FFFF && !(0xD800 <= n <= 0xDFFF)
  }

  /** `char::from_u32`: the character with code `n`, or nothing for a surrogate
      or a value past 0x10FFFF. */
  function FromU32(n: int): (r: Option<char>)
    ensures r.Some? <==> IsScalar(n)
    ensures r.Some? ==> r.value as int == n
  {
    if IsScalar(n) then Some(n as char) else None
  }

  /** `char::is_whitespace`: the White_Space property of the Unicode Character
      Database. */
  predicate IsWhitespace(c: char) {
    ('\t' <= c <= '\r') || c == ' ' || c == '\U{0085}' || c == '\U{00A0}' ||
    c == '\U{1680}' || ('\U{2000}' <= c <= '\U{200A}') || c == '\U{2028}' ||
    c == '\U{2029}' || c == '\U{202F}' || c == '\U{205F}' || c == '\U{3000}'
  }

  /** `char::is_ascii_control`. */
  predicate IsAsciiControl(c: char) {
    c <= '\U{001F}' || c == '\U{007F}'
  }

  /** `char::len_utf8`: the number of bytes of the UTF-8 encoding. */
  function Utf8Len(c: char): (n: nat)
    ensures 1 <= n <= 4
    ensures n == 1 <==> c as int < 0x80
  {
    if c as int < 0x80 then 1
    else if c as int < 0x800 then 2
    else if c as int < 0x10000 then 3
    else 4
  }

  /** `str::len`: the UTF-8 byte length of a string. */
  function Utf8Length(s: string): (n: nat)
    ensures n >= |s|
  {
    if s == [] then 0 else Utf8Len(s[0]) + Utf8Length(s[1..])
  }

  /** A string's byte length equals its character count exactly when the
      string is ASCII. */
  lemma {:induction false} Utf8LengthAscii(s: string)
    ensures Utf8Length(s) == |s| <==> forall i :: 0 <= i < |s| ==> s[i] as int < 0x80
  {
    if s != [] {
      Utf8LengthAscii(s[1..]);
      assert forall i :: 1 <= i < |s| ==> s[i] == s[1..][i - 1];
    }
  }

  /** Every character is ASCII. */
  predicate IsAsciiString(s: string) {
    s == [] || (s[0] as int < 0x80 && IsAsciiString(s[1..]))
  }

  lemma {:induction false} AsciiUtf8Length(s: string)
    requires IsAsciiString(s)
    ensures Utf8Length(s) == |s|
  {
    if s != [] {
      AsciiUtf8Length(s[1..]);
    }
  }

  /** A block of the `unicode_blocks` crate: the closed range [start, end]. */
  datatype UnicodeBlock = UnicodeBlock(start: nat, end: nat)

  /** `UnicodeBlock::contains`: both ends of the range belong to the block,
      and a block whose end lies before its start holds nothing. */
  predicate BlockContains(b: UnicodeBlock, c: char): (r: bool)
    ensures b.start <= b.end && c as int in {b.start, b.end} ==> r
    ensures r ==> b.start <= b.end
  {
    b.start <= c as int <= b.end
  }

  /** The only promise the model takes from `find_unicode_block`: the block it
      finds contains the character it was asked about. */
  ghost predicate BlockLookupOk(findBlock: char -> Option<UnicodeBlock>) {
    forall c :: FoundBlockContains(findBlock(c), c)
  }

  predicate FoundBlockContains(found: Option<UnicodeBlock>, c: char) {
    found.Some? ==> BlockContains(found.value, c)
  }
}
